=== FILE: README.md ===
# mobdb core, modelled in Dafny

mobdb mirrors an SQLite database from an Android device to the workstation
and serves it to a browser-based viewer. This project models the two core
packages:

- **Replication loop** (`internal/sync/sync.go`). `RunSync` repeats one
  sync cycle and one sleep while the `run` flag holds. A cycle pulls the
  remote file over `adb` and stats the local copy. When backups are enabled
  and the elapsed time since the last backup is strictly greater than the
  backup interval, the cycle calls `createBackup`. `createBackup` writes a
  copy named `backups/<base>_<YYYYMMDD_HHMMSS>.db` and deletes the oldest
  matching copies beyond the retention limit.
- **Query gateway** (`internal/viewer/viewer.go`):
  - `/query` classifies a statement as a read (`SELECT` after upper-casing
    and trimming) or a mutation;
  - `/data/<table>` lists up to 1000 rows of one table;
  - `/schema` describes every table;
  - `/db_status` reports whether the file changed since the last report.

  Result rows become maps from column name to value, with byte slices turned
  into text. Domain errors are reported as `{"error": …}` with status 200.

Modules:

- `Wrappers`: `Option` and bytes.
- `Lex`: Go's string order, compared character by character, and a sort standing in for `sort.Strings`.
- `Timestamp`: the zero-padded `20060102_150405` layout.
- `Snapshot`: `createBackup`, as class `SnapshotStore` over a map from file name to bytes.
- `Replication`: class `Replicator`, holding the `run` flag and `lastBackupTime`.
- `Rows`: scanning and materialisation.
- `SqlText`: `ToUpper`, `TrimSpace`, `HasPrefix` and the read/mutate classification of a statement.
- `Paths`: `strings.Split` and `strings.Join` on URL paths, and the table segment of a `/data/<table>` path.
- `Gateway`: the three query handlers.
- `Freshness`: class `FreshnessTracker`, holding `lastModified`.

The operating system, the clock, `adb` and the SQL engine are parameters.
Each handler or cycle receives the answers those would give: `BackupEnv`,
`CycleEnv`, `QueryReply`, `PragmaReply`, `Observation`. Durations are
nanoseconds, as Go's `time.Duration` is.

Note:

- `Base` returns "/" for a path made only of slashes. `filepath.Join` then
  cleans `backups//_…` to `backups/_…`. The model therefore uses an empty
  stem in that case, both for the name written and for the glob pattern.

## Model

| member | source | states |
|---|---|---|
| Lex.Less | internal/sync/sync.go:99 | Go's string `<` never holds between equal strings, and a proper prefix sorts first |
| Lex.LessIrreflexive | internal/sync/sync.go:99 | no string sorts before itself |
| Lex.LessAsymmetric | internal/sync/sync.go:99 | string order is asymmetric |
| Lex.LessTransitive | internal/sync/sync.go:99 | string order is transitive |
| Lex.LessTotal | internal/sync/sync.go:99 | any two distinct strings are ordered one way or the other |
| Lex.LessCommonPrefix | internal/sync/sync.go:99 | a shared prefix (the backup stem) does not change how two names compare |
| Lex.LessFixedWidthConcat | internal/sync/sync.go:99 | names built from equal-width fields compare field by field |
| Lex.Insert | internal/sync/sync.go:99 | inserting into a sorted list keeps it sorted and adds exactly that element |
| Lex.Sort | internal/sync/sync.go:99 | `sort.Strings` yields a sorted permutation of its input |
| Lex.SortedDistinctIsStrict | internal/sync/sync.go:99 | a sorted list without repeats is strictly increasing |
| Timestamp.Fixed | internal/sync/sync.go:76 | a zero-padded field has exactly its width and only digits |
| Timestamp.Digits | internal/sync/sync.go:76 | an unpadded decimal rendering is non-empty and only digits |
| Timestamp.DigitsWide | internal/sync/sync.go:76 | a number that does not fit in w digits renders in more than w |
| Timestamp.Pad | internal/sync/sync.go:76 | a zero-padded field holds only digits, never fewer than its width, and exactly its width when the number fits |
| Timestamp.Format | internal/sync/sync.go:76 | the `20060102_150405` timestamp is never shorter than 15 characters and exactly 15 for four-digit years |
| Timestamp.FixedOrder | internal/sync/sync.go:76 | zero-padded fields of one width compare as strings exactly as their numbers do, and are equal exactly when the numbers are |
| Timestamp.FormatShape | internal/sync/sync.go:76 | for years 0–9999 the timestamp is 15 characters: 8 digits, `_`, 6 digits |
| Timestamp.FormatFields | internal/sync/sync.go:76 | the timestamp is year(4), month(2), day(2), `_`, hour(2), minute(2), second(2), all zero-padded |
| Timestamp.FormatOrder | internal/sync/sync.go:76 | timestamps compare as strings in chronological order, and are equal exactly for the same second |
| Timestamp.ConcatInjective | internal/sync/sync.go:76 | a name made of a fixed-width field and a remainder determines both parts |
| Snapshot.Base | internal/sync/sync.go:77 | `filepath.Base` is never empty, holds no slash unless it is "/", and is the path itself when the path has no slash |
| Snapshot.Stem | internal/sync/sync.go:77 | the part before `_` holds no slash and is the base name unless the base is "/" |
| Snapshot.Entry | internal/sync/sync.go:76-77 | the backup's name inside `backups` holds no slash and always matches the `<base>_*.db` pattern retention lists |
| Snapshot.BackupPath | internal/sync/sync.go:76-77 | the backup path is `backups/` + base name + `_` + timestamp + `.db` |
| Snapshot.Matches | internal/sync/sync.go:92 | a name matching `<stem>_*.db` is longer than the stem and has `_` right after it; with a slash-free stem it holds no slash (`*` does not cross `/`) |
| Snapshot.Matching | internal/sync/sync.go:92 | the glob lists exactly the directory's names that match `<base>_*.db` |
| Snapshot.EntryOrder | internal/sync/sync.go:76-85 | backup names sort chronologically; two backups share a name (the second write replaces the first) exactly when taken in the same second |
| Snapshot.FormatHasNoSlash | internal/sync/sync.go:76 | the timestamp holds no `/`, so `*` in the glob can match it |
| Snapshot.StrictlySortedCardinality | internal/sync/sync.go:98-100 | a strictly sorted list has as many distinct names as entries |
| Snapshot.RetentionKeepsNewest | internal/sync/sync.go:98-104 | after retention exactly min(n, maxCount) matching names remain, each later than every removed name; nothing is removed when n <= maxCount |
| Snapshot.NewestSurvives | internal/sync/sync.go:85-100 | with maxCount >= 1, a new backup that no matching name sorts after survives retention |
| Snapshot.StaleSelectionUnique | internal/sync/sync.go:98-104 | the removal specification allows exactly one list of names |
| Snapshot.StaleAt | internal/sync/sync.go:98-104 | two lists that meet the removal specification agree at every position |
| Snapshot.SmallerIsListed | internal/sync/sync.go:98-104 | a matching name smaller than a removed one is removed too |
| Snapshot.NoRepeats | internal/sync/sync.go:92-99 | the sorted glob result holds no name twice |
| Snapshot.RepeatCounts | internal/sync/sync.go:92-99 | a name at two positions occurs at least twice |
| Snapshot.SortedPrefixIsStale | internal/sync/sync.go:98-100 | the first n - maxCount names of the sorted glob result are exactly the removal specification |
| Snapshot.SnapshotStore.constructor | internal/sync/sync.go:70 | the store starts with the given directory contents |
| Snapshot.SnapshotStore.ListSorted | internal/sync/sync.go:92-99 | glob plus sort lists every matching name once, strictly increasing |
| Snapshot.SnapshotStore.RemoveAll | internal/sync/sync.go:100-103 | removal is attempted on every stale name in order; exactly the removals that do not fail delete their file |
| Snapshot.RetainedCopies | internal/sync/sync.go:85-104 | after writing the new entry and deleting the stale selection, the database's copies are min(n, maxCount) names, each later than every deleted one, with the new entry among them when maxCount >= 1 and no copy sorts after it |
| Snapshot.BackupRetains | internal/sync/sync.go:70-105 | a created backup whose removals all succeed leaves exactly those copies |
| Snapshot.SnapshotStore.CreateBackup | internal/sync/sync.go:70-105 | the call has the effect `BackupEffect` spells out: a failed mkdir, read or write changes nothing; a failed glob keeps the new copy and deletes nothing; otherwise the copy is written (replacing a same-second one) and removal is attempted on exactly the stale selection, a failed removal keeping its file |
| Replication.Wrap64 | internal/sync/sync.go:27-28 | `Duration(n) * time.Second` is reduced to int64 (two's complement) and is exact when representable |
| Replication.DurationOf | internal/sync/sync.go:27-28 | `Duration(n) * time.Second` is the exact nanosecond count when it fits in int64, and never equals the largest duration even after wrap-around |
| Replication.WrappedSecondsAreEven | internal/sync/sync.go:27-28 | a whole number of seconds, wrapped to int64, is an even number of nanoseconds |
| Replication.Saturate | internal/sync/sync.go:64 | `time.Since` clamps to the `Duration` range: exact inside it, the largest duration above it, the smallest below it |
| Replication.Elapsed | internal/sync/sync.go:64 | `time.Since(lastBackupTime)` lies in the `Duration` range, is the largest duration for the zero time, is the exact difference when it fits, and saturates to the largest (smallest) duration when the difference overflows (underflows) |
| Replication.BackupDue | internal/sync/sync.go:64 | a backup is never due with backups disabled, and always due with them enabled before the first backup |
| Replication.NextLastBackup | internal/sync/sync.go:64-66 | the last-backup time moves exactly in a cycle that synced and found a backup due, and then to that cycle's start instant; in every other cycle it stays where it was |
| Replication.Iterations | internal/sync/sync.go:36-39 | the loop runs no more cycles than the environment describes |
| Replication.IterationsWithoutSignal | internal/sync/sync.go:30-39 | without a signal the loop runs every cycle |
| Replication.IterationsStopAfterSignal | internal/sync/sync.go:30-39 | the loop runs up to and including the first signalled cycle, so a signal takes effect after that cycle's sleep |
| Replication.DisabledNeverBacksUp | internal/sync/sync.go:64-67 | with backups disabled the last-backup time never moves |
| Replication.DueIffElapsedExceeds | internal/sync/sync.go:64 | a backup is due exactly when enabled and elapsed > interval (strict: not at equality) |
| Replication.NoBackupKeepsLast | internal/sync/sync.go:45-66 | a run in which no cycle synced and found a backup due ends with the initial last-backup time |
| Replication.LastBackupIsCycleStart | internal/sync/sync.go:45-66 | a moved last-backup time is the start instant of a cycle that synced and found a backup due (judged from the last-backup time the earlier cycles left), and no later cycle took one |
| Replication.SomeBackupTaken | internal/sync/sync.go:64-67 | with backups enabled, whatever the interval, a run containing a successful sync records a backup (the zero time's saturated elapsed time exceeds every interval) |
| Replication.CyclesEffectStep | internal/sync/sync.go:36-39 | a cycle's effect extends the record of a run by its sync and sleep steps and the store it left |
| Replication.StoreChangesOnlyOnBackup | internal/sync/sync.go:44-67 | over a run, the backup store changes only in a cycle that synced, found a backup due and took it |
| Replication.Replicator.constructor | internal/sync/sync.go:21-24 | the loop starts running with the zero last-backup time |
| Replication.Replicator.Stop | internal/sync/sync.go:30-34 | the signal clears `run` and touches nothing else |
| Replication.Replicator.SyncDatabase | internal/sync/sync.go:44-68 | the cycle has the effect `CycleEffect` spells out: a failed pull or stat ends it with the store and the last-backup time unchanged; otherwise it reports the size, and a backup is taken exactly when due, with `createBackup`'s full effect (`BackupEffect`) on the store, which is untouched when none is due; the last-backup time becomes the cycle's start instant whatever the backup's outcome |
| Replication.Replicator.RunSync | internal/sync/sync.go:26-42 | the trace alternates one sync and one sleep of the sync interval; `run` is checked only at the top, so a signal takes effect after the current sleep; cycle k's sync step has `CycleEffect` from the last-backup time cycles 0..k-1 left, taking the store from `stores[k]` to `stores[k+1]` (a due backup is taken in exactly the cycles where one is due); the last-backup time is the fold of the cycles run; with backups disabled the store is untouched; without a signal `run` keeps its value |
| Rows.Normalize | internal/viewer/viewer.go:202-207 | a byte slice becomes text with the same bytes; every other value passes through unchanged |
| Rows.Scan | internal/viewer/viewer.go:194-197 | a row scans exactly when it is readable and its width equals the number of destinations |
| Rows.Scanned | internal/viewer/viewer.go:193-197 | no more rows come out than went in, each of the expected width |
| Rows.ScannedSingle | internal/viewer/viewer.go:193-197 | one row contributes its values when it scans and nothing when it does not |
| Rows.ScannedAppend | internal/viewer/viewer.go:193-197 | scanning goes row by row: two result sets scan to the first's rows followed by the second's |
| Rows.ScannedAll | internal/viewer/viewer.go:193-210 | when every row scans, all are kept, in order |
| Rows.ScannedNone | internal/viewer/viewer.go:166-197 | when the PRAGMA column list disagrees with every row's width, the data endpoint returns no rows |
| Rows.LastIndex | internal/viewer/viewer.go:199-208 | the value for a repeated column name comes from its last occurrence |
| Rows.RowHasNoBlob | internal/viewer/viewer.go:199-208 | no materialised row holds a byte slice |
| Rows.MaterializeRow | internal/viewer/viewer.go:312-321 | a row's keys are exactly the column names, each holding the normalised value of the last column with that name |
| Rows.MaterializeRows | internal/viewer/viewer.go:305-323 | one materialised row per row that scans, in order |
| Rows.Somes | internal/viewer/viewer.go:99-107 | the values that scan are exactly those kept, and no more come out than went in |
| Rows.SomesSingle | internal/viewer/viewer.go:99-107 | one slot contributes its value when it scans and nothing otherwise |
| Rows.SomesAppend | internal/viewer/viewer.go:99-107 | failures are skipped slot by slot: two sequences give the first's values followed by the second's |
| Rows.Collect | internal/viewer/viewer.go:99-107 | the scanning loop keeps the values that scan, in order |
| SqlText.IsSpace | internal/viewer/viewer.go:282 | the white space `strings.TrimSpace` removes holds no ASCII letter |
| SqlText.UpperChar | internal/viewer/viewer.go:282 | upper-casing one character leaves no lower-case ASCII letter, changes nothing else, and keeps white space white space |
| SqlText.TrimSpace | internal/viewer/viewer.go:282 | `strings.TrimSpace` is the slice of the text after its leading white space with only white space after it, and neither starts nor ends with white space |
| SqlText.IsReadQuery | internal/viewer/viewer.go:282-283 | a statement on the read path has at least six characters |
| SqlText.ToUpper | internal/viewer/viewer.go:282 | upper-casing works character by character and keeps the length |
| SqlText.TrimRight | internal/viewer/viewer.go:282 | trimming the right end removes exactly the trailing white space |
| SqlText.LeadingSpaces | internal/viewer/viewer.go:282 | counts the white space before the first other character |
| SqlText.TrimLeftDrops | internal/viewer/viewer.go:282 | trimming the left end drops exactly the leading white space |
| SqlText.UpperKeepsSpaces | internal/viewer/viewer.go:282 | upper-casing does not change the leading white space |
| SqlText.TrimRightKeepsPrefix | internal/viewer/viewer.go:282-283 | trimming the right end does not change whether a space-free prefix is present |
| SqlText.UpperSlice | internal/viewer/viewer.go:282 | upper-casing commutes with taking a slice |
| SqlText.ReadQueryIff | internal/viewer/viewer.go:282-283 | a query takes the read path exactly when its first six characters after leading white space upper-case to `SELECT` |
| SqlText.StepA | internal/viewer/viewer.go:282 | the left-trimmed upper-cased query is the upper-cased query past its leading white space |
| SqlText.StepB | internal/viewer/viewer.go:282-283 | trailing white space does not affect the `SELECT` prefix test |
| SqlText.StepC | internal/viewer/viewer.go:282-283 | the prefix checked is the upper-cased six characters after the white space |
| SqlText.ReadLowerCase | internal/viewer/viewer.go:282-283 | `select * from t` takes the read path |
| SqlText.ReadAfterLeadingBlanks | internal/viewer/viewer.go:282-283 | `SELECT 1` after any number of blanks takes the read path |
| SqlText.ReadMixedCase | internal/viewer/viewer.go:282-283 | `SeLeCt 1` takes the read path |
| SqlText.ReadLongerWord | internal/viewer/viewer.go:282-283 | `SELECTED` takes the read path: only the prefix is checked |
| SqlText.MutatePathExamples | internal/viewer/viewer.go:282-283 | `DELETE`, `insert`, `update` and `WITH … SELECT` statements take the mutate path |
| SqlText.ReadAfterBlanks | internal/viewer/viewer.go:282-283 | blanks followed by a word that upper-cases to `SELECT` take the read path, whatever follows |
| SqlText.LeadingSpacesAt | internal/viewer/viewer.go:282 | the white-space count is the position of the first other character |
| SqlText.MutateFirstLetter | internal/viewer/viewer.go:282-283 | a query whose first non-space letter is not `s`/`S` takes the mutate path |
| Paths.Split | internal/viewer/viewer.go:143 | `strings.Split` yields at least one part, none holding the separator |
| Paths.SplitCount | internal/viewer/viewer.go:143-144 | there is one more part than separators, so the path has fewer than three parts exactly when it has fewer than two slashes |
| Paths.JoinSplit | internal/viewer/viewer.go:143 | joining the parts gives back the path |
| Paths.JoinCons | internal/viewer/viewer.go:143 | joining a part in front of others adds that part and one separator |
| Paths.JoinExtendHead | internal/viewer/viewer.go:143 | extending the first part by a character extends the joined string by it |
| Paths.SplitJoin | internal/viewer/viewer.go:143 | splitting a join of separator-free parts gives back the parts |
| Paths.SplitPlain | internal/viewer/viewer.go:143 | a path without separators is one part |
| Paths.SplitAfter | internal/viewer/viewer.go:143 | splitting after a separator-free first part adds that part in front |
| Paths.SplitFirst | internal/viewer/viewer.go:143 | the first part is the text before the first separator |
| Paths.TableFromPath | internal/viewer/viewer.go:143-148 | there is no table exactly when the path has fewer than two slashes; a table holds no slash |
| Paths.DataPathTable | internal/viewer/viewer.go:143-148 | `/data/<t>` followed by nothing or `/…` names table `t` (`/data/` names the empty table, `/data/a/b` names `a`) |
| Paths.ThirdSegment | internal/viewer/viewer.go:143-148 | the table is the third slash-separated segment |
| Gateway.FileExists | internal/viewer/viewer.go:347-353 | `fileExists` is false for a missing path and a directory, true otherwise |
| Gateway.JsonError | internal/viewer/viewer.go:355-359 | a domain error is a status-200 body carrying only the error text |
| Gateway.QueryHandler | internal/viewer/viewer.go:250-345 | non-POST gives 405; then, in order, a missing file, an undecodable body, an empty query and an open error each give their error; a read gives results with rowCount equal to their number, a mutation gives the success message with the affected-row count and no results, and an engine error gives only an error |
| Gateway.PragmaStatement | internal/viewer/viewer.go:111 | the column-list statement is the table name spliced verbatim between `PRAGMA table_info(` and `);` |
| Gateway.DataStatement | internal/viewer/viewer.go:178 | the data query selects from the named table and always ends ` LIMIT 1000;` |
| Gateway.Names | internal/viewer/viewer.go:166-176 | each column row's name, in order |
| Gateway.DataHandler | internal/viewer/viewer.go:135-213 | a missing file, an invalid path, an open error, a PRAGMA failure and a data-query failure each give their error and stop issuing statements; otherwise every row that scans against the PRAGMA columns is materialised |
| Gateway.SchemaHandler | internal/viewer/viewer.go:75-133 | the schema's tables are exactly the scanned table names whose PRAGMA succeeds, each holding the column rows that scan, default values as scanned |
| Freshness.Observe | internal/viewer/viewer.go:225-245 | the tracked time never goes back and moves exactly when the report says changed, then to the reported modification time; a file that is not there reports `{false,0,0,false}` and keeps it |
| Freshness.ObserveSpec | internal/viewer/viewer.go:215-248 | a missing or un-stat-able file reports `{false,0,0,false}` and keeps the tracked time; otherwise changed holds exactly when mod > lastModified, which becomes the larger of the two and never decreases |
| Freshness.RepeatReportsUnchanged | internal/viewer/viewer.go:237-245 | asking again without a new modification reports changed=false |
| Freshness.ObserveAll | internal/viewer/viewer.go:225-245 | one report per poll of a run; a report says the file exists exactly when it was there, carries its modification time, and flags a change only for a file that exists |
| Freshness.ChangedTimesIncrease | internal/viewer/viewer.go:237-245 | over any run of polls, whatever times they see, the modification times reported as changed are newer than the starting tracked time and strictly increase |
| Freshness.NoChangeOnceSeen | internal/viewer/viewer.go:237-245 | once the tracked time has reached m, no later poll that sees m reports a change, whatever the polls in between saw; a run that sees only m reports none |
| Freshness.ChangedAtMostOnce | internal/viewer/viewer.go:237-245 | across any run of polls no modification time is reported as changed twice; a run that sees one modification time reports at most one change |
| Freshness.ChangedExactlyOnce | internal/viewer/viewer.go:237-245 | a new modification is reported by the first poll that sees it and by no other |
| Freshness.FreshnessTracker.constructor | internal/viewer/viewer.go:20-22 | the tracked time starts at zero |
| Freshness.FreshnessTracker.Status | internal/viewer/viewer.go:215-248 | the handler's report and new tracked time are those of `Observe` |

## Left out

- Process output, logging, the HTTP routing table, `indexHandler` and JSON encoding are not modelled. Encoding details not modelled include `omitempty` and a nil slice encoding as `null`. The handlers return the payload as a datatype.
- The `adb` pull is not modelled. It is a parameter, `CycleEnv.pullOk`, together with the size the stat reports. The shell command text is not modelled.
- File-system calls are not modelled: `os.MkdirAll`, `os.ReadFile`, `os.WriteFile`, `filepath.Glob`, `os.Remove` and `os.Stat`. Their outcomes are fields of `BackupEnv`, `CycleEnv` and `Observation`. A partial write is not modelled.
- The `backups` directory is flat in the model. Files are keyed by bare name, not by the `backups/…` path. The sort order is the same because every path shares that prefix.
- Glob metacharacters (`*`, `?`, `[`) inside the database's base name are not interpreted. A glob's `ErrBadPattern` is a flag.
- Clock reading and local-time conversion are not modelled. Time-zone and daylight-saving effects are included in this. `createBackup` receives an already-decomposed calendar time. The cycle receives instants in nanoseconds. A cycle reads the clock three times, and all three are separate inputs: `time.Now()` at the start (`CycleEnv.start`), `time.Since` at the backup check (`CycleEnv.checkTime`), and `time.Now()` inside `createBackup` (`BackupEnv.now`). Nothing ties them together. The model does not require `start <= checkTime`. It does not require `now` to be the calendar form of an instant at or after `checkTime`.
- Timestamp.FormatOrder: proved only for years 0–9999. With five-digit years, string order and time order part.
- Negative years are not modelled.
- Concurrency is not modelled. This covers the race between the signal goroutine and the loop, the race between concurrent status polls on `lastModified`, and gateway reads while the file is being overwritten. The signal's arrival is an input per cycle.
- Replication.Replicator.RunSync: the loop runs over a finite sequence of cycle environments rather than forever. A run longer than that sequence is not described.
- Snapshot.SnapshotStore.CreateBackup: requires `maxCount >= 0`. With a negative limit the source's slice expression panics.
- Replication.Replicator.SyncDatabase: requires `maxCount >= 0`, for the same reason as `CreateBackup`.
- `fileExists` panics when `os.Stat` fails with an error other than not-exist. The model treats that case as `Missing`.
- SQL semantics are not modelled. The engine's answers to each statement are parameters, so `LIMIT` enforcement and `RowsAffected` errors are not modelled. A failing `RowsAffected` is not distinguished; the source discards its error.
- SQL injection through the table name is not analysed. The name is pasted into the statement text; `DataStatement` records the text sent.
- SqlText.UpperChar: upper-cases only ASCII letters. The source's `strings.ToUpper` follows Unicode case mapping. The classification of queries starting with a non-ASCII letter that maps to `S` is therefore not captured.
- SqlText.IsSpace: `TrimSpace` is modelled on runes. The model does not decode UTF-8 from bytes.
- Lex.Less: compares `char`s, which agrees with Go's byte order only for well-formed UTF-8. File names that are not valid UTF-8 can occur in Go but cannot be represented in the model.
- Float values are opaque 64-bit patterns. Float arithmetic is not modelled.

=== FILE: freshness.dfy ===
/**
 * The `/db_status` freshness signal: the viewer remembers the newest
 * modification time it has reported and flags a status as changed only when
 * the file's modification time (whole seconds) moves past it.
 */
module Freshness {
  import opened Wrappers
  import Gateway

  /** What a successful `os.Stat` reports: modification time in Unix
      seconds and size in bytes. */
  datatype FileStat = FileStat(modified: int, size: int)

  datatype DBStatus = DBStatus(existing: bool, size: int, modified: int, changed: bool)

  /** The report for a file that is absent or cannot be stat'ed. */
  const Unknown := DBStatus(false, 0, 0, false)

  /** One status request: the `fileExists` answer and the `os.Stat` that
      follows it (`None` when it fails). */
  datatype Observation = Observation(kind: Gateway.PathKind, stat: Option<FileStat>)

  predicate Present(o: Observation)
  {
    Gateway.FileExists(o.kind) && o.stat.Some?
  }

  /** A status request against the tracked time `last`: the report and the
      new tracked time. The tracked time never goes back, it moves exactly
      when the report says `changed`, and then to the reported modification
      time; a file that is not there leaves everything as it was. */
  function Observe(last: int, o: Observation): (r: (DBStatus, int))
    ensures r.1 >= last
    ensures r.0.changed <==> r.1 > last
    ensures r.0.changed ==> r.0.existing && r.1 == r.0.modified
    ensures !r.0.existing ==> r.0 == Unknown && r.1 == last
  {
    if !Present(o) then (Unknown, last)
    else
      var m := o.stat.value.modified;
      (DBStatus(true, o.stat.value.size, m, m > last), if m > last then m else last)
  }

  function Max(a: int, b: int): int
  {
    if a < b then b else a
  }

  /** Reports are what the file shows, `changed` holds exactly when a present
      file is newer than anything reported before, and the tracked time
      becomes the larger of the two. */
  lemma ObserveSpec(last: int, o: Observation)
    ensures var (status, next) := Observe(last, o);
      && (status.existing <==> Present(o))
      && (status.changed <==> Present(o) && o.stat.value.modified > last)
      && (Present(o) ==> status.size == o.stat.value.size && status.modified == o.stat.value.modified
                         && next == Max(last, o.stat.value.modified))
      && (!Present(o) ==> status == Unknown && next == last)
      && next >= last
  {
  }

  /** Asking again about a file that has not been modified since reports no
      change and leaves the tracked time where it is. */
  lemma RepeatReportsUnchanged(last: int, o: Observation)
    ensures var (_, next) := Observe(last, o);
      var (again, after) := Observe(next, o);
      !again.changed && after == next
  {
  }

  /** The reports of a run of requests, oldest first: one per request, each
      saying whether the file was there and, when it was, its modification
      time. */
  function ObserveAll(last: int, obs: seq<Observation>): (r: seq<DBStatus>)
    ensures |r| == |obs|
    ensures forall i :: 0 <= i < |obs| ==> (r[i].existing <==> Present(obs[i]))
    ensures forall i :: 0 <= i < |obs| && r[i].changed ==> r[i].existing
    ensures forall i :: 0 <= i < |obs| && Present(obs[i]) ==> r[i].modified == obs[i].stat.value.modified
    decreases |obs|
  {
    if obs == [] then []
    else
      var (status, next) := Observe(last, obs[0]);
      var rest := ObserveAll(next, obs[1..]);
      assert forall i :: 1 <= i < |obs| ==> obs[i] == obs[1..][i - 1];
      [status] + rest
  }

  function CountChanged(reports: seq<DBStatus>): nat
  {
    if reports == [] then 0
    else (if reports[0].changed then 1 else 0) + CountChanged(reports[1..])
  }

  /** No report flags a change: the count is zero. */
  lemma {:induction false} CountNone(reports: seq<DBStatus>)
    requires forall i :: 0 <= i < |reports| ==> !reports[i].changed
    ensures CountChanged(reports) == 0
  {
    if reports != [] {
      assert forall i :: 0 <= i < |reports[1..]| ==> reports[1..][i] == reports[i + 1];
      CountNone(reports[1..]);
    }
  }

  /** No two reports flag a change: the count is at most one. */
  lemma {:induction false} CountAtMostOne(reports: seq<DBStatus>)
    requires forall i, j :: 0 <= i < j < |reports| ==> !(reports[i].changed && reports[j].changed)
    ensures CountChanged(reports) <= 1
  {
    if reports != [] {
      assert forall i :: 0 <= i < |reports[1..]| ==> reports[1..][i] == reports[i + 1];
      if reports[0].changed {
        CountNone(reports[1..]);
      } else {
        CountAtMostOne(reports[1..]);
      }
    }
  }

  /** Every present observation carries modification time `m`. */
  predicate AllAt(obs: seq<Observation>, m: int)
  {
    forall i :: 0 <= i < |obs| ==> Present(obs[i]) ==> obs[i].stat.value.modified == m
  }

  /** Over any run of polls, the modification times reported as changed are
      newer than the tracked time the run started from and strictly
      increase. */
  lemma {:induction false} ChangedTimesIncrease(last: int, obs: seq<Observation>)
    ensures forall i :: 0 <= i < |obs| && ObserveAll(last, obs)[i].changed ==> ObserveAll(last, obs)[i].modified > last
    ensures forall i, j :: 0 <= i < j < |obs| && ObserveAll(last, obs)[i].changed && ObserveAll(last, obs)[j].changed
              ==> ObserveAll(last, obs)[i].modified < ObserveAll(last, obs)[j].modified
    decreases |obs|
  {
    if obs != [] {
      var (status, next) := Observe(last, obs[0]);
      ChangedTimesIncrease(next, obs[1..]);
      var r := ObserveAll(last, obs);
      var rest := ObserveAll(next, obs[1..]);
      assert r == [status] + rest;
      forall i | 0 <= i < |r| && r[i].changed
        ensures r[i].modified > last
      {
        if i > 0 {
          assert r[i] == rest[i - 1];
        }
      }
      forall i, j | 0 <= i < j < |r| && r[i].changed && r[j].changed
        ensures r[i].modified < r[j].modified
      {
        assert r[j] == rest[j - 1];
        if i > 0 {
          assert r[i] == rest[i - 1];
        }
      }
    }
  }

  /** Once the tracked time has reached `m`, no poll that sees modification
      time `m` reports a change, whatever the polls in between saw. */
  lemma NoChangeOnceSeen(last: int, obs: seq<Observation>, m: int)
    requires m <= last
    ensures forall i :: 0 <= i < |obs| && Present(obs[i]) && obs[i].stat.value.modified == m
              ==> !ObserveAll(last, obs)[i].changed
    ensures AllAt(obs, m) ==> CountChanged(ObserveAll(last, obs)) == 0
  {
    ChangedTimesIncrease(last, obs);
    var r := ObserveAll(last, obs);
    forall i | 0 <= i < |obs| && Present(obs[i]) && obs[i].stat.value.modified == m
      ensures !r[i].changed
    {
      assert r[i].modified == m;
    }
    if AllAt(obs, m) {
      assert forall i :: 0 <= i < |r| ==> !r[i].changed;
      CountNone(r);
    }
  }

  /** However often the viewer polls, and whatever modification times the
      polls see, no modification time is reported as a change twice; so a
      run that sees one modification time reports at most one change. */
  lemma ChangedAtMostOnce(last: int, obs: seq<Observation>, m: int)
    ensures var r := ObserveAll(last, obs);
      forall i, j :: 0 <= i < j < |r| && r[i].changed && r[j].changed ==> r[i].modified != r[j].modified
    ensures AllAt(obs, m) ==> CountChanged(ObserveAll(last, obs)) <= 1
    ensures AllAt(obs, m) && m <= last ==> CountChanged(ObserveAll(last, obs)) == 0
  {
    ChangedTimesIncrease(last, obs);
    var r := ObserveAll(last, obs);
    if AllAt(obs, m) {
      assert forall i, j :: 0 <= i < j < |r| ==> !(r[i].changed && r[j].changed);
      CountAtMostOne(r);
      if m <= last {
        NoChangeOnceSeen(last, obs, m);
      }
    }
  }

  /** A modification newer than anything reported is flagged by the first
      request that sees it, and by no later one. */
  lemma ChangedExactlyOnce(last: int, obs: seq<Observation>, m: int)
    requires AllAt(obs, m) && m > last
    requires |obs| > 0 && Present(obs[0])
    ensures ObserveAll(last, obs)[0].changed
    ensures CountChanged(ObserveAll(last, obs)) == 1
  {
    assert obs[0].stat.value.modified == m;
    var (status, next) := Observe(last, obs[0]);
    assert next == m;
    assert AllAt(obs[1..], m) by {
      forall i | 0 <= i < |obs[1..]|
        ensures Present(obs[1..][i]) ==> obs[1..][i].stat.value.modified == m
      {
        assert obs[1..][i] == obs[i + 1];
      }
    }
    NoChangeOnceSeen(next, obs[1..], m);
    assert ObserveAll(last, obs)[1..] == ObserveAll(next, obs[1..]);
  }

  /** The viewer's process-wide `lastModified`, as an object. */
  class FreshnessTracker {
    var lastModified: int

    constructor ()
      ensures lastModified == 0
    {
      lastModified := 0;
    }

    /** `dbStatusHandler`. */
    method Status(o: Observation) returns (status: DBStatus)
      modifies this
      ensures (status, lastModified) == Observe(old(lastModified), o)
    {
      status := Unknown;
      if !Gateway.FileExists(o.kind) {
        return;
      }
      if o.stat.None? {
        return;
      }
      var current := o.stat.value.modified;
      status := DBStatus(true, o.stat.value.size, current, current > lastModified);
      if status.changed {
        lastModified := current;
      }
    }
  }
}

=== FILE: gateway.dfy ===
/**
 * The query gateway's handlers with the SQL engine, the file system and
 * JSON decoding replaced by the answers they give: `/query`, `/data/{table}`
 * and `/schema`, and the error shape they share.
 */
module Gateway {
  import opened Wrappers
  import Rows
  import SqlText
  import Paths

  /** What `os.Stat` says about the database path. */
  datatype PathKind = Missing | Directory | NonDirectory

  /** `fileExists`: false for a missing path and for a directory, true for
      anything else. */
  predicate FileExists(kind: PathKind)
    ensures kind == Missing || kind == Directory ==> !FileExists(kind)
    ensures kind != Missing && kind != Directory ==> FileExists(kind)
  {
    kind == NonDirectory
  }

  /** One row of `PRAGMA table_info`, as scanned (`ColumnInfo`). */
  datatype ColumnInfo = ColumnInfo(
    cid: int,
    name: string,
    colType: string,
    notNull: int,
    defaultValue: Rows.Value,
    pk: int)

  /** The JSON bodies the handlers write. */
  datatype Payload =
    | ErrorPayload(error: string)
    | ResultsPayload(results: seq<map<string, Rows.Value>>, rowCount: int)
    | MessagePayload(message: string, rowCount: int)
    | TablePayload(rows: seq<map<string, Rows.Value>>)
    | SchemaPayload(schema: map<string, seq<ColumnInfo>>)

  datatype Response =
    | Json(status: int, payload: Payload)
    | HttpError(status: int, text: string)

  const StatusOK: int := 200
  const StatusMethodNotAllowed: int := 405

  /** `writeJSONError`: a domain-level failure is reported with the normal
      status and a body holding only the error text. */
  function JsonError(msg: string): (r: Response)
    ensures r.Json? && r.status == StatusOK
    ensures r.payload.ErrorPayload? && r.payload.error == msg
  {
    Json(StatusOK, ErrorPayload(msg))
  }

  /** The engine's answers. */
  datatype ColumnsReply = ColumnNames(names: seq<string>) | ColumnsFailed(err: string)
  datatype QueryReply = QueryFailed(err: string) | Answered(columns: ColumnsReply, rows: seq<Rows.RawRow>)
  datatype ExecReply = ExecFailed(err: string) | Executed(rowsAffected: int)
  datatype PragmaReply = PragmaFailed(err: string) | PragmaRows(infos: seq<Option<ColumnInfo>>)
  datatype TablesReply = TablesFailed(err: string) | TableRows(names: seq<Option<string>>)

  /** The request body after JSON decoding; an absent `query` field decodes
      to the empty string. */
  datatype QueryBody = Decoded(query: string) | Undecodable(err: string)

  /** `/query` gets as far as the engine: POST, an existing file, a decoded
      non-empty query and an open database. */
  predicate Admitted(httpMethod: string, kind: PathKind, body: QueryBody, openError: Option<string>)
  {
    httpMethod == "POST" && FileExists(kind) && body.Decoded? && body.query != "" && openError.None?
  }

  /** `queryHandler`. */
  method QueryHandler(httpMethod: string, kind: PathKind, body: QueryBody, openError: Option<string>,
                      read: QueryReply, exec: ExecReply)
    returns (resp: Response)
    ensures resp.HttpError? <==> httpMethod != "POST"
    ensures resp.HttpError? ==> resp.status == StatusMethodNotAllowed && resp.text == "Method not allowed"
    ensures resp.Json? ==> resp.status == StatusOK
    ensures resp.Json? ==>
      resp.payload.ErrorPayload? || resp.payload.ResultsPayload? || resp.payload.MessagePayload?
    ensures httpMethod == "POST" && !FileExists(kind) ==>
      resp == JsonError("Database file not found")
    ensures httpMethod == "POST" && FileExists(kind) && body.Undecodable? ==>
      resp == JsonError("Error parsing request: " + body.err)
    ensures httpMethod == "POST" && FileExists(kind) && body == Decoded("") ==>
      resp == JsonError("No query provided")
    ensures httpMethod == "POST" && FileExists(kind) && body.Decoded? && body.query != "" && openError.Some? ==>
      resp == JsonError("Error opening database: " + openError.value)
    ensures Admitted(httpMethod, kind, body, openError) && SqlText.IsReadQuery(body.query) ==>
      && (read.QueryFailed? ==> resp == JsonError("SQLite error: " + read.err))
      && (read.Answered? && read.columns.ColumnsFailed? ==>
            resp == JsonError("Error getting columns: " + read.columns.err))
      && (read.Answered? && read.columns.ColumnNames? ==> resp.Json? && resp.payload.ResultsPayload?)
    ensures Admitted(httpMethod, kind, body, openError) && !SqlText.IsReadQuery(body.query) ==>
      && (exec.ExecFailed? ==> resp == JsonError("SQLite error: " + exec.err))
      && (exec.Executed? ==> resp == Json(StatusOK, MessagePayload("Query executed successfully", exec.rowsAffected)))
    ensures resp.Json? && resp.payload.ResultsPayload? ==>
      && Admitted(httpMethod, kind, body, openError) && SqlText.IsReadQuery(body.query)
      && read.Answered? && read.columns.ColumnNames?
      && resp.payload.rowCount == |resp.payload.results|
      && |resp.payload.results| == |Rows.Scanned(read.rows, |read.columns.names|)|
      && forall k :: 0 <= k < |resp.payload.results| ==>
           Rows.RowOf(read.columns.names, Rows.Scanned(read.rows, |read.columns.names|)[k], resp.payload.results[k])
    ensures resp.Json? && resp.payload.MessagePayload? ==>
      Admitted(httpMethod, kind, body, openError) && !SqlText.IsReadQuery(body.query) && exec.Executed?
  {
    if httpMethod != "POST" {
      return HttpError(StatusMethodNotAllowed, "Method not allowed");
    }
    if !FileExists(kind) {
      return JsonError("Database file not found");
    }
    if body.Undecodable? {
      return JsonError("Error parsing request: " + body.err);
    }
    if body.query == "" {
      return JsonError("No query provided");
    }
    if openError.Some? {
      return JsonError("Error opening database: " + openError.value);
    }
    if SqlText.IsReadQuery(body.query) {
      if read.QueryFailed? {
        return JsonError("SQLite error: " + read.err);
      }
      if read.columns.ColumnsFailed? {
        return JsonError("Error getting columns: " + read.columns.err);
      }
      var results := Rows.MaterializeRows(read.columns.names, read.rows);
      resp := Json(StatusOK, ResultsPayload(results, |results|));
    } else {
      if exec.ExecFailed? {
        return JsonError("SQLite error: " + exec.err);
      }
      resp := Json(StatusOK, MessagePayload("Query executed successfully", exec.rowsAffected));
    }
  }

  /** The column-list query of the schema and data endpoints: the table
      name spliced verbatim between "PRAGMA table_info(" and ");", so distinct
      names give distinct statements. */
  function PragmaStatement(table: string): (q: string)
    ensures |q| == |table| + 20
    ensures q[..18] == "PRAGMA table_info(" && q[18..|q| - 2] == table
    ensures q[|q| - 2..] == ");"
  {
    "PRAGMA table_info(" + table + ");"
  }

  /** The row query of the data endpoint: a `SELECT *` of the named table
      that always ends with a 1000-row limit. */
  function DataStatement(table: string): (q: string)
    ensures |q| == |table| + 26
    ensures q[..14] == "SELECT * FROM " && q[14..|q| - 12] == table
    ensures q[|q| - 12..] == " LIMIT 1000;"
  {
    "SELECT * FROM " + table + " LIMIT 1000;"
  }

  function Names(infos: seq<ColumnInfo>): (names: seq<string>)
    ensures |names| == |infos|
    ensures forall i :: 0 <= i < |infos| ==> names[i] == infos[i].name
  {
    seq(|infos|, i requires 0 <= i < |infos| => infos[i].name)
  }

  /** `dataHandler`: returns the response and the statements sent to the
      engine, in order. */
  method DataHandler(path: string, kind: PathKind, openError: Option<string>,
                     pragma: PragmaReply, data: QueryReply)
    returns (resp: Response, issued: seq<string>)
    ensures resp.Json? && resp.status == StatusOK
    ensures !FileExists(kind) ==> resp == JsonError("Database file not found") && issued == []
    ensures FileExists(kind) && Paths.TableFromPath(path).None? ==>
      resp == JsonError("Invalid table path") && issued == []
    ensures FileExists(kind) && Paths.TableFromPath(path).Some? ==>
      var table := Paths.TableFromPath(path).value;
      && (openError.Some? ==> resp == JsonError("Error opening database: " + openError.value) && issued == [])
      && (openError.None? ==> |issued| >= 1 && issued[..1] == [PragmaStatement(table)])
      && (openError.None? && pragma.PragmaFailed? ==>
            resp == JsonError("Error getting columns for table " + table + ": " + pragma.err) && |issued| == 1)
      && (openError.None? && pragma.PragmaRows? ==> issued == [PragmaStatement(table), DataStatement(table)])
      && (openError.None? && pragma.PragmaRows? && data.QueryFailed? ==>
            resp == JsonError("Error querying data from table " + table + ": " + data.err))
      && (openError.None? && pragma.PragmaRows? && data.Answered? ==> resp.payload.TablePayload?)
    ensures resp.payload.TablePayload? ==>
      && FileExists(kind) && Paths.TableFromPath(path).Some? && openError.None?
      && pragma.PragmaRows? && data.Answered?
      && var columns := Names(Rows.Somes(pragma.infos));
         && |resp.payload.rows| == |Rows.Scanned(data.rows, |columns|)|
         && forall k :: 0 <= k < |resp.payload.rows| ==>
              Rows.RowOf(columns, Rows.Scanned(data.rows, |columns|)[k], resp.payload.rows[k])
  {
    issued := [];
    if !FileExists(kind) {
      return JsonError("Database file not found"), issued;
    }
    var parts := Paths.Split(path, '/');
    if |parts| < 3 {
      return JsonError("Invalid table path"), issued;
    }
    var table := parts[2];
    if openError.Some? {
      return JsonError("Error opening database: " + openError.value), issued;
    }
    issued := issued + [PragmaStatement(table)];
    if pragma.PragmaFailed? {
      return JsonError("Error getting columns for table " + table + ": " + pragma.err), issued;
    }
    var infos := Rows.Collect(pragma.infos);
    var columns := Names(infos);
    issued := issued + [DataStatement(table)];
    if data.QueryFailed? {
      return JsonError("Error querying data from table " + table + ": " + data.err), issued;
    }
    var rows := Rows.MaterializeRows(columns, data.rows);
    resp := Json(StatusOK, TablePayload(rows));
  }

  /** `schemaHandler`: table names that fail to scan are skipped, a table
      whose `PRAGMA table_info` fails is left out of the map, and column rows
      that fail to scan are dropped; the columns that remain are kept exactly
      as scanned. */
  method SchemaHandler(kind: PathKind, openError: Option<string>, tables: TablesReply,
                       pragma: string -> PragmaReply)
    returns (resp: Response)
    ensures resp.Json? && resp.status == StatusOK
    ensures !FileExists(kind) ==> resp == JsonError("Database file not found")
    ensures FileExists(kind) && openError.Some? ==>
      resp == JsonError("Error opening database: " + openError.value)
    ensures FileExists(kind) && openError.None? && tables.TablesFailed? ==>
      resp == JsonError("Error querying tables: " + tables.err)
    ensures FileExists(kind) && openError.None? && tables.TableRows? ==>
      && resp.payload.SchemaPayload?
      && (forall t :: t in resp.payload.schema <==> Some(t) in tables.names && pragma(t).PragmaRows?)
      && (forall t :: t in resp.payload.schema ==> resp.payload.schema[t] == Rows.Somes(pragma(t).infos))
  {
    if !FileExists(kind) {
      return JsonError("Database file not found");
    }
    if openError.Some? {
      return JsonError("Error opening database: " + openError.value);
    }
    if tables.TablesFailed? {
      return JsonError("Error querying tables: " + tables.err);
    }
    var names := Rows.Collect(tables.names);
    var schema: map<string, seq<ColumnInfo>> := map[];
    var i := 0;
    while i < |names|
      invariant 0 <= i <= |names|
      invariant forall t :: t in schema <==> t in names[..i] && pragma(t).PragmaRows?
      invariant forall t :: t in schema ==> schema[t] == Rows.Somes(pragma(t).infos)
    {
      var table := names[i];
      var reply := pragma(table);
      if reply.PragmaRows? {
        var columns := Rows.Collect(reply.infos);
        schema := schema[table := columns];
      }
      assert names[..i + 1] == names[..i] + [table];
      i := i + 1;
    }
    assert names[..i] == names;
    resp := Json(StatusOK, SchemaPayload(schema));
  }
}

=== FILE: lex.dfy ===
/**
 * Go's ordering of strings (`<` and `sort.Strings`): lexicographic on the
 * encoded bytes. For well-formed text the order of UTF-8 byte sequences is
 * the order of code points, so comparing `char`s one by one agrees with it.
 */
module Lex {

  /** `a < b` on Go strings: never between equal strings, and a proper
      prefix comes first. */
  predicate Less(a: string, b: string)
    ensures Less(a, b) ==> a != b
    ensures |a| < |b| && a == b[..|a|] ==> Less(a, b)
  {
    if |a| == 0 then |b| > 0
    else if |b| == 0 then false
    else if a[0] != b[0] then a[0] < b[0]
    else
      assert |a| < |b| && a == b[..|a|] ==> a[1..] == b[1..][..|a| - 1];
      Less(a[1..], b[1..])
  }

  predicate LessOrEqual(a: string, b: string)
  {
    a == b || Less(a, b)
  }

  lemma {:induction false} LessIrreflexive(a: string)
    ensures !Less(a, a)
  {
    if |a| > 0 {
      LessIrreflexive(a[1..]);
    }
  }

  lemma {:induction false} LessAsymmetric(a: string, b: string)
    ensures Less(a, b) ==> !Less(b, a)
  {
    if |a| > 0 && |b| > 0 && a[0] == b[0] {
      LessAsymmetric(a[1..], b[1..]);
    }
  }

  lemma {:induction false} LessTransitive(a: string, b: string, c: string)
    ensures Less(a, b) && Less(b, c) ==> Less(a, c)
  {
    if |a| > 0 && |b| > 0 && |c| > 0 && a[0] == b[0] == c[0] {
      LessTransitive(a[1..], b[1..], c[1..]);
    }
  }

  lemma {:induction false} LessTotal(a: string, b: string)
    ensures a == b || Less(a, b) || Less(b, a)
  {
    if |a| > 0 && |b| > 0 && a[0] == b[0] {
      LessTotal(a[1..], b[1..]);
      if a[1..] == b[1..] {
        assert a == [a[0]] + a[1..] && b == [b[0]] + b[1..];
      }
    }
  }

  /** A common prefix does not change the order: this is why sorting the
      paths `backups/<name>` orders them exactly as their names. */
  lemma {:induction false} LessCommonPrefix(p: string, x: string, y: string)
    ensures Less(p + x, p + y) <==> Less(x, y)
  {
    if |p| > 0 {
      assert (p + x)[1..] == p[1..] + x;
      assert (p + y)[1..] == p[1..] + y;
      LessCommonPrefix(p[1..], x, y);
    } else {
      assert p + x == x && p + y == y;
    }
  }

  /** Comparing two concatenations whose first parts have the same length:
      the first parts decide, and the second parts break a tie. This is why
      fixed-width fields sort field by field. */
  lemma {:induction false} LessFixedWidthConcat(x1: string, y1: string, x2: string, y2: string)
    requires |x1| == |x2|
    ensures Less(x1 + y1, x2 + y2) <==> Less(x1, x2) || (x1 == x2 && Less(y1, y2))
  {
    if |x1| == 0 {
      assert x1 + y1 == y1 && x2 + y2 == y2 && x1 == x2;
    } else {
      assert (x1 + y1)[1..] == x1[1..] + y1;
      assert (x2 + y2)[1..] == x2[1..] + y2;
      LessFixedWidthConcat(x1[1..], y1, x2[1..], y2);
      if x1[0] == x2[0] {
        assert x1 == x2 <==> x1[1..] == x2[1..] by {
          assert x1 == [x1[0]] + x1[1..] && x2 == [x2[0]] + x2[1..];
        }
      }
    }
  }

  /** Non-decreasing in Go's string order. */
  ghost predicate Sorted(s: seq<string>)
  {
    forall i, j :: 0 <= i < j < |s| ==> LessOrEqual(s[i], s[j])
  }

  /** Strictly increasing: sorted and without repetition. */
  ghost predicate StrictlySorted(s: seq<string>)
  {
    forall i, j :: 0 <= i < j < |s| ==> Less(s[i], s[j])
  }

  /** Inserting `x` into a sorted sequence, before the first element it does
      not exceed. */
  function Insert(x: string, s: seq<string>): (r: seq<string>)
    requires Sorted(s)
    ensures Sorted(r)
    ensures multiset(r) == multiset(s) + multiset{x}
  {
    if s == [] then [x]
    else if LessOrEqual(x, s[0]) then
      assert Sorted([x] + s) by {
        forall j | 0 < j < |s| + 1
          ensures LessOrEqual(x, ([x] + s)[j])
        {
          LessTransitive(x, s[0], s[j - 1]);
        }
      }
      [x] + s
    else
      var rest := Insert(x, s[1..]);
      assert s == [s[0]] + s[1..];
      LessTotal(x, s[0]);
      assert Sorted([s[0]] + rest) by {
        forall j | 0 <= j < |rest|
          ensures LessOrEqual(s[0], rest[j])
        {
          assert rest[j] in multiset(rest);
          if rest[j] != x {
            assert rest[j] in multiset(s[1..]);
            var k :| 0 <= k < |s[1..]| && s[1..][k] == rest[j];
            assert s[k + 1] == rest[j];
          }
        }
      }
      [s[0]] + rest
  }

  /** `sort.Strings`: an insertion sort stands in for Go's library sort, which
      produces the same (unique) sorted arrangement. */
  function Sort(s: seq<string>): (r: seq<string>)
    ensures Sorted(r)
    ensures multiset(r) == multiset(s)
  {
    if s == [] then []
    else
      assert s == [s[0]] + s[1..];
      Insert(s[0], Sort(s[1..]))
  }

  /** A sorted arrangement of distinct names is strictly increasing. */
  lemma SortedDistinctIsStrict(s: seq<string>)
    requires Sorted(s)
    requires forall i, j :: 0 <= i < j < |s| ==> s[i] != s[j]
    ensures StrictlySorted(s)
  {
  }
}

=== FILE: paths.dfy ===
/**
 * URL paths in the gateway: `strings.Split` on '/', its inverse
 * `strings.Join`, and the table segment the data handler reads from a
 * `/data/<table>` path.
 */
module Paths {
  import opened Wrappers

  /** `strings.Split(s, string(sep))`: one more part than there are
      separators; the empty string gives one empty part. */
  function Split(s: string, sep: char): (parts: seq<string>)
    ensures |parts| >= 1
    ensures forall k :: 0 <= k < |parts| ==> sep !in parts[k]
  {
    if s == [] then [[]]
    else
      var rest := Split(s[1..], sep);
      if s[0] == sep then [[]] + rest else [[s[0]] + rest[0]] + rest[1..]
  }

  /** There is one more part than there are separators. */
  lemma {:induction false} SplitCount(s: string, sep: char)
    ensures |Split(s, sep)| == multiset(s)[sep] + 1
  {
    if s != [] {
      SplitCount(s[1..], sep);
      assert s == [s[0]] + s[1..];
    }
  }

  /** `strings.Join(parts, string(sep))`. */
  function Join(parts: seq<string>, sep: char): string
    requires |parts| >= 1
  {
    if |parts| == 1 then parts[0] else parts[0] + [sep] + Join(parts[1..], sep)
  }

  /** Joining the parts restores the string. */
  lemma {:induction false} JoinSplit(s: string, sep: char)
    ensures Join(Split(s, sep), sep) == s
  {
    if s != [] {
      var rest := Split(s[1..], sep);
      JoinSplit(s[1..], sep);
      if s[0] == sep {
        assert Split(s, sep) == [[]] + rest;
        JoinCons([], rest, sep);
      } else {
        assert Split(s, sep) == [[s[0]] + rest[0]] + rest[1..];
        JoinExtendHead(s[0], rest, sep);
      }
      assert s == [s[0]] + s[1..];
    }
  }

  lemma JoinCons(x: string, rest: seq<string>, sep: char)
    requires |rest| >= 1
    ensures Join([x] + rest, sep) == x + [sep] + Join(rest, sep)
  {
    assert ([x] + rest)[1..] == rest;
  }

  lemma JoinExtendHead(c: char, rest: seq<string>, sep: char)
    requires |rest| >= 1
    ensures Join([[c] + rest[0]] + rest[1..], sep) == [c] + Join(rest, sep)
  {
    var parts := [[c] + rest[0]] + rest[1..];
    if |rest| > 1 {
      assert parts[1..] == rest[1..];
      assert Join(parts, sep) == [c] + rest[0] + [sep] + Join(rest[1..], sep);
    }
  }

  /** Splitting a joined list of separator-free parts gives the parts
      back. */
  lemma {:induction false} SplitJoin(parts: seq<string>, sep: char)
    requires |parts| >= 1
    requires forall k :: 0 <= k < |parts| ==> sep !in parts[k]
    ensures Split(Join(parts, sep), sep) == parts
  {
    if |parts| == 1 {
      SplitPlain(parts[0], sep);
    } else {
      SplitJoin(parts[1..], sep);
      SplitAfter(parts[0], Join(parts[1..], sep), sep);
      assert parts == [parts[0]] + parts[1..];
    }
  }

  lemma {:induction false} SplitPlain(a: string, sep: char)
    requires sep !in a
    ensures Split(a, sep) == [a]
  {
    if a != [] {
      assert a == [a[0]] + a[1..];
      assert sep !in a[1..];
      SplitPlain(a[1..], sep);
    }
  }

  /** A separator-free first part followed by a separator becomes the first
      part of the split. */
  lemma {:induction false} SplitAfter(a: string, s: string, sep: char)
    requires sep !in a
    ensures Split(a + [sep] + s, sep) == [a] + Split(s, sep)
  {
    if a == [] {
      assert [sep] + s == a + [sep] + s;
      assert ([sep] + s)[1..] == s;
    } else {
      assert (a + [sep] + s)[1..] == a[1..] + [sep] + s;
      SplitAfter(a[1..], s, sep);
      assert a == [a[0]] + a[1..];
    }
  }

  /** The first part of a split ends at the first separator. */
  lemma {:induction false} SplitFirst(a: string, s: string, sep: char)
    requires sep !in a
    requires s == [] || s[0] == sep
    ensures Split(a + s, sep)[0] == a
  {
    if s == [] {
      assert a + s == a;
      SplitPlain(a, sep);
    } else {
      assert a + s == a + [sep] + s[1..];
      SplitAfter(a, s[1..], sep);
    }
  }

  /** The table segment of a `/data/...` path: the third part of the path
      split on '/', or None when there are fewer than three parts. */
  function TableFromPath(path: string): (t: Option<string>)
    ensures t.None? <==> multiset(path)['/'] < 2
    ensures t.Some? ==> '/' !in t.value
  {
    SplitCount(path, '/');
    var parts := Split(path, '/');
    if |parts| < 3 then None else Some(parts[2])
  }

  /** For `/data/<t><rest>`, where `rest` is empty or starts a further
      segment, the table is `t`: `/data/a/b` names `a` and `/data/` names
      the empty string. */
  lemma DataPathTable(t: string, rest: string)
    requires '/' !in t
    requires rest == [] || rest[0] == '/'
    ensures TableFromPath("/data/" + t + rest) == Some(t)
  {
    assert "/data/" + t + rest == [] + ['/'] + ("data" + ['/'] + (t + rest));
    ThirdSegment([], "data", t, rest);
  }

  /** Any path whose first two segments hold no slash yields its third
      segment as the table. */
  lemma ThirdSegment(a: string, b: string, t: string, rest: string)
    requires '/' !in a && '/' !in b && '/' !in t
    requires rest == [] || rest[0] == '/'
    ensures TableFromPath(a + ['/'] + (b + ['/'] + (t + rest))) == Some(t)
  {
    var x := b + ['/'] + (t + rest);
    SplitAfter(a, x, '/');
    SplitAfter(b, t + rest, '/');
    SplitFirst(t, rest, '/');
    var parts := Split(a + ['/'] + x, '/');
    assert parts == [a] + ([b] + Split(t + rest, '/'));
    assert parts[2] == Split(t + rest, '/')[0];
  }
}

=== FILE: replication.dfy ===
/**
 * The replication loop: `RunSync` repeats one sync cycle and one sleep
 * while the `run` flag is set; each cycle pulls the remote file, stats the
 * local copy and, when a backup is due, takes one.
 */
module Replication {
  import opened Wrappers
  import Snapshot
  import Timestamp

  /** The command-line configuration (`sync.Config`); intervals in seconds. */
  datatype Config = Config(
    appPackage: string,
    dbName: string,
    syncInterval: int,
    backupEnabled: bool,
    backupInterval: int,
    backupMaxCount: int)

  /** Nanoseconds per second: `time.Second`. */
  const Second: int := 1_000_000_000
  const MaxDuration: int := 0x7fff_ffff_ffff_ffff
  const MinDuration: int := -0x8000_0000_0000_0000
  const TwoTo64: int := 0x1_0000_0000_0000_0000

  /** Go's int64 arithmetic: reduce to the two's-complement range. */
  function Wrap64(x: int): (r: int)
    ensures MinDuration <= r <= MaxDuration
    ensures (x - r) % TwoTo64 == 0
    ensures MinDuration <= x <= MaxDuration ==> r == x
  {
    (x - MinDuration) % TwoTo64 + MinDuration
  }

  /** `time.Duration(n) * time.Second`, which wraps on overflow: the exact
      product when it fits in int64, and never the largest duration (a
      whole number of seconds is an even count of nanoseconds, and wrapping
      by 2^64 keeps it even, while the largest duration is odd). */
  function DurationOf(seconds: int): (d: int)
    ensures MinDuration <= d < MaxDuration
    ensures MinDuration <= seconds * Second <= MaxDuration ==> d == seconds * Second
  {
    WrappedSecondsAreEven(seconds);
    Wrap64(seconds * Second)
  }

  lemma WrappedSecondsAreEven(seconds: int)
    ensures Wrap64(seconds * Second) % 2 == 0
  {
    var x := seconds * Second;
    var y := x - MinDuration;
    var q := y / TwoTo64;
    assert y == TwoTo64 * q + y % TwoTo64;
    assert Wrap64(x) == x - TwoTo64 * q;
    var half := seconds * 500_000_000 - 0x8000_0000_0000_0000 * q;
    assert x - TwoTo64 * q == 2 * half;
  }

  /** `Time.Sub`, which saturates at the extremes of `time.Duration`: an
      overflow becomes the largest duration and an underflow the smallest. */
  function Saturate(d: int): (r: int)
    ensures MinDuration <= r <= MaxDuration
    ensures MinDuration <= d <= MaxDuration ==> r == d
    ensures d > MaxDuration ==> r == MaxDuration
    ensures d < MinDuration ==> r == MinDuration
  {
    if d > MaxDuration then MaxDuration else if d < MinDuration then MinDuration else d
  }

  /** `time.Since(lastBackupTime)` read at `now` (instants in nanoseconds).
      The zero `time.Time` (no backup yet) lies far enough in the past that
      the difference saturates. */
  function Elapsed(now: int, last: Option<int>): (e: int)
    ensures MinDuration <= e <= MaxDuration
    ensures last.None? ==> e == MaxDuration
    ensures last.Some? && MinDuration <= now - last.value <= MaxDuration ==> e == now - last.value
    ensures last.Some? && now - last.value > MaxDuration ==> e == MaxDuration
    ensures last.Some? && now - last.value < MinDuration ==> e == MinDuration
  {
    match last
    case None => MaxDuration
    case Some(t) => Saturate(now - t)
  }

  /** The backup-due test of `syncDatabase`: never due with backups
      disabled, and always due with them enabled before the first backup,
      whatever the interval. */
  predicate BackupDue(cfg: Config, last: Option<int>, now: int)
    ensures BackupDue(cfg, last, now) ==> cfg.backupEnabled
    ensures last.None? ==> (BackupDue(cfg, last, now) <==> cfg.backupEnabled)
  {
    cfg.backupEnabled && Elapsed(now, last) > DurationOf(cfg.backupInterval)
  }

  /** What the environment does during one cycle: the instant captured at
      its start, whether the `adb` pull succeeds, the file size `os.Stat`
      reports (None on error), the instant at which `time.Since` reads the
      clock, the snapshot store's environment, and whether the stop signal
      arrives before the next check of `run`. */
  datatype CycleEnv = CycleEnv(
    start: int,
    pullOk: bool,
    stat: Option<int>,
    checkTime: int,
    backup: Snapshot.BackupEnv,
    signalled: bool)
  {
    predicate Synced()
    {
      pullOk && stat.Some?
    }
  }

  datatype CycleOutcome =
    | PullFailed
    | StatFailed
    | Synced(size: int, backup: Option<Snapshot.BackupOutcome>)

  datatype Event = SyncStep(outcome: CycleOutcome) | SleepStep(duration: int)

  /** The last-backup time after one cycle: it moves only on a cycle that
      synced and found a backup due, and then to that cycle's start instant;
      in every other cycle it stays where it was. */
  function NextLastBackup(cfg: Config, last: Option<int>, c: CycleEnv): (r: Option<int>)
    ensures r == last || (c.Synced() && r == Some(c.start))
    ensures c.Synced() && BackupDue(cfg, last, c.checkTime) ==> r == Some(c.start)
    ensures !(c.Synced() && BackupDue(cfg, last, c.checkTime)) ==> r == last
  {
    if c.Synced() && BackupDue(cfg, last, c.checkTime) then Some(c.start) else last
  }

  /** The last-backup time after a run of cycles. */
  function LastBackupAfter(cfg: Config, last: Option<int>, cycles: seq<CycleEnv>): Option<int>
  {
    if cycles == [] then last
    else NextLastBackup(cfg, LastBackupAfter(cfg, last, cycles[..|cycles| - 1]), cycles[|cycles| - 1])
  }

  /** How many cycles the loop runs: none when `run` is already false,
      otherwise up to and including the cycle during which the signal
      arrives (or all of `env`). */
  function Iterations(running: bool, env: seq<CycleEnv>): (k: nat)
    ensures k <= |env|
  {
    if !running || env == [] then 0
    else if env[0].signalled then 1
    else 1 + Iterations(true, env[1..])
  }

  /** Without a signal every cycle of `env` runs. */
  lemma {:induction false} IterationsWithoutSignal(env: seq<CycleEnv>)
    requires forall k :: 0 <= k < |env| ==> !env[k].signalled
    ensures Iterations(true, env) == |env|
  {
    if env != [] {
      assert forall k :: 0 <= k < |env[1..]| ==> env[1..][k] == env[k + 1];
      IterationsWithoutSignal(env[1..]);
    }
  }

  /** A signal takes effect after the cycle during which it arrives: the
      loop runs up to and including the first signalled cycle. */
  lemma {:induction false} IterationsStopAfterSignal(env: seq<CycleEnv>, j: nat)
    requires j < |env| && env[j].signalled
    requires forall k :: 0 <= k < j ==> !env[k].signalled
    ensures Iterations(true, env) == j + 1
  {
    if j > 0 {
      assert forall k :: 0 <= k < j - 1 ==> env[1..][k] == env[k + 1];
      IterationsStopAfterSignal(env[1..], j - 1);
    }
  }

  /** With backups disabled the last-backup time never moves. */
  lemma {:induction false} DisabledNeverBacksUp(cfg: Config, last: Option<int>, cycles: seq<CycleEnv>)
    requires !cfg.backupEnabled
    ensures LastBackupAfter(cfg, last, cycles) == last
  {
    if cycles != [] {
      DisabledNeverBacksUp(cfg, last, cycles[..|cycles| - 1]);
    }
  }

  /** The due rule is a strict comparison of the elapsed time with the
      interval: exactly at the interval no backup is due. */
  lemma DueIffElapsedExceeds(cfg: Config, t: int, now: int)
    requires MinDuration <= now - t <= MaxDuration
    ensures BackupDue(cfg, Some(t), now) <==> cfg.backupEnabled && now - t > DurationOf(cfg.backupInterval)
    ensures now - t == DurationOf(cfg.backupInterval) ==> !BackupDue(cfg, Some(t), now)
  {
  }

  /** Cycle `j` of a run from `last` synced and found a backup due, so it
      took one. */
  ghost predicate TookBackup(cfg: Config, last: Option<int>, cycles: seq<CycleEnv>, j: nat)
    requires j < |cycles|
  {
    cycles[j].Synced() && BackupDue(cfg, LastBackupAfter(cfg, last, cycles[..j]), cycles[j].checkTime)
  }

  /** Whether cycle `j` took a backup depends only on the cycles up to it. */
  lemma TookBackupPrefix(cfg: Config, last: Option<int>, cycles: seq<CycleEnv>, n: nat, j: nat)
    requires j < n <= |cycles|
    ensures TookBackup(cfg, last, cycles[..n], j) == TookBackup(cfg, last, cycles, j)
  {
    assert cycles[..n][..j] == cycles[..j];
  }

  /** A run in which no cycle took a backup leaves the last-backup time at
      its initial value. */
  lemma {:induction false} NoBackupKeepsLast(cfg: Config, last: Option<int>, cycles: seq<CycleEnv>)
    requires forall j :: 0 <= j < |cycles| ==> !TookBackup(cfg, last, cycles, j)
    ensures LastBackupAfter(cfg, last, cycles) == last
  {
    if cycles != [] {
      var n := |cycles| - 1;
      forall j | 0 <= j < n
        ensures !TookBackup(cfg, last, cycles[..n], j)
      {
        TookBackupPrefix(cfg, last, cycles, n, j);
      }
      NoBackupKeepsLast(cfg, last, cycles[..n]);
      assert !TookBackup(cfg, last, cycles, n);
    }
  }

  /** A moved last-backup time is the start instant of the last cycle that
      took a backup. */
  lemma {:induction false} LastBackupIsCycleStart(cfg: Config, last: Option<int>, cycles: seq<CycleEnv>)
    ensures LastBackupAfter(cfg, last, cycles) != last ==>
              exists j :: 0 <= j < |cycles| && TookBackup(cfg, last, cycles, j)
                && LastBackupAfter(cfg, last, cycles) == Some(cycles[j].start)
                && forall i :: j < i < |cycles| ==> !TookBackup(cfg, last, cycles, i)
  {
    if cycles != [] {
      var n := |cycles| - 1;
      var init := cycles[..n];
      if !TookBackup(cfg, last, cycles, n) {
        var r0 := LastBackupAfter(cfg, last, init);
        assert LastBackupAfter(cfg, last, cycles) == r0;
        if r0 != last {
          LastBackupIsCycleStart(cfg, last, init);
          var j :| 0 <= j < n && TookBackup(cfg, last, init, j) && r0 == Some(init[j].start)
                   && forall i :: j < i < n ==> !TookBackup(cfg, last, init, i);
          TookBackupPrefix(cfg, last, cycles, n, j);
          forall i | j < i < |cycles|
            ensures !TookBackup(cfg, last, cycles, i)
          {
            if i < n {
              TookBackupPrefix(cfg, last, cycles, n, i);
            }
          }
          assert cycles[j] == init[j];
        }
      }
    }
  }

  /** With backups enabled, whatever the interval, the first cycle that syncs
      successfully takes a backup when none has been taken yet (the zero
      time's saturated elapsed time exceeds every duration), so a run
      containing such a cycle ends with a last-backup time. */
  lemma {:induction false} SomeBackupTaken(cfg: Config, cycles: seq<CycleEnv>, j: nat)
    requires cfg.backupEnabled
    requires j < |cycles| && cycles[j].Synced()
    ensures LastBackupAfter(cfg, None, cycles).Some?
  {
    if j == |cycles| - 1 {
      var r0 := LastBackupAfter(cfg, None, cycles[..j]);
      assert r0.None? ==> BackupDue(cfg, r0, cycles[j].checkTime);
    } else {
      SomeBackupTaken(cfg, cycles[..|cycles| - 1], j);
    }
  }

  /**
   * The effect of one `syncDatabase` call, given the last-backup time before
   * it and the snapshot store's contents before and after: a failed pull or
   * stat touches nothing; a successful sync reports the size, takes a backup
   * exactly when one is due, and that backup has `createBackup`'s effect on
   * the store, which is otherwise left alone.
   */
  ghost predicate CycleEffect(cfg: Config, last: Option<int>, c: CycleEnv,
                              before: map<string, seq<Byte>>, after: map<string, seq<Byte>>, outcome: CycleOutcome)
  {
    && (!c.pullOk ==> outcome == PullFailed && after == before)
    && (c.pullOk && c.stat.None? ==> outcome == StatFailed && after == before)
    && (c.Synced() ==>
          && outcome.Synced? && outcome.size == c.stat.value
          && (outcome.backup.Some? <==> BackupDue(cfg, last, c.checkTime))
          && (BackupDue(cfg, last, c.checkTime) ==>
                && 0 <= cfg.backupMaxCount && c.backup.now.Valid()
                && Snapshot.BackupEffect(before, cfg.dbName, cfg.backupMaxCount, c.backup, after, outcome.backup.value))
          && (!BackupDue(cfg, last, c.checkTime) ==> after == before))
  }

  /** Cycle `k` of a run from last-backup time `last`: its sync step sits at
      `trace[2 * k]` and took the store from `stores[k]` to `stores[k + 1]`
      as `CycleEffect` describes. */
  ghost predicate CycleRecorded(cfg: Config, last: Option<int>, env: seq<CycleEnv>, k: nat,
                                trace: seq<Event>, stores: seq<map<string, seq<Byte>>>)
  {
    && k < |env| && 2 * k < |trace| && k + 1 < |stores|
    && trace[2 * k].SyncStep?
    && CycleEffect(cfg, LastBackupAfter(cfg, last, env[..k]), env[k], stores[k], stores[k + 1], trace[2 * k].outcome)
  }

  /** The first `n` cycles of a run, each as `CycleRecorded` describes. */
  ghost predicate CyclesEffect(cfg: Config, last: Option<int>, env: seq<CycleEnv>, n: nat,
                               trace: seq<Event>, stores: seq<map<string, seq<Byte>>>)
  {
    && n <= |env| && 2 * n <= |trace| && |stores| == n + 1
    && forall k: nat :: k < n ==> CycleRecorded(cfg, last, env, k, trace, stores)
  }

  /** One more cycle extends a run's record by its sync and sleep steps and
      the store it left. */
  lemma CyclesEffectStep(cfg: Config, last: Option<int>, env: seq<CycleEnv>, n: nat,
                         trace: seq<Event>, stores: seq<map<string, seq<Byte>>>,
                         prev: Option<int>, before: map<string, seq<Byte>>,
                         outcome: CycleOutcome, d: int, after: map<string, seq<Byte>>)
    requires CyclesEffect(cfg, last, env, n, trace, stores)
    requires n < |env| && |trace| == 2 * n
    requires prev == LastBackupAfter(cfg, last, env[..n]) && before == stores[n]
    requires CycleEffect(cfg, prev, env[n], before, after, outcome)
    ensures CyclesEffect(cfg, last, env, n + 1, trace + [SyncStep(outcome), SleepStep(d)], stores + [after])
  {
    var t, st := trace + [SyncStep(outcome), SleepStep(d)], stores + [after];
    forall k: nat | k < n + 1
      ensures CycleRecorded(cfg, last, env, k, t, st)
    {
      if k < n {
        assert CycleRecorded(cfg, last, env, k, trace, stores);
        assert t[2 * k] == trace[2 * k] && st[k] == stores[k] && st[k + 1] == stores[k + 1];
      }
    }
  }

  /** Over a recorded run, the store changes only in a cycle that synced and
      took a backup. */
  lemma StoreChangesOnlyOnBackup(cfg: Config, last: Option<int>, env: seq<CycleEnv>, n: nat,
                                 trace: seq<Event>, stores: seq<map<string, seq<Byte>>>, k: nat)
    requires CyclesEffect(cfg, last, env, n, trace, stores) && k < n
    requires stores[k + 1] != stores[k]
    ensures trace[2 * k].SyncStep?
    ensures trace[2 * k].outcome.Synced? && trace[2 * k].outcome.backup.Some?
    ensures BackupDue(cfg, LastBackupAfter(cfg, last, env[..k]), env[k].checkTime)
  {
    assert CycleRecorded(cfg, last, env, k, trace, stores);
  }

  class Replicator {
    /** The package-level `run` flag. */
    var run: bool
    /** The package-level `lastBackupTime`; None is Go's zero time. */
    var lastBackupTime: Option<int>
    /** The `backups` directory. */
    const store: Snapshot.SnapshotStore

    constructor (store: Snapshot.SnapshotStore)
      ensures run && lastBackupTime == None && this.store == store
    {
      run := true;
      lastBackupTime := None;
      this.store := store;
    }

    /** The signal goroutine's `run = false`. */
    method Stop()
      modifies this
      ensures !run && lastBackupTime == old(lastBackupTime)
    {
      run := false;
    }

    /** `syncDatabase`: a failed pull or stat ends the cycle with nothing
        else done; otherwise a due backup is taken and the last-backup time
        becomes the instant captured at the start of the cycle, whatever the
        backup's own outcome. */
    method SyncDatabase(cfg: Config, c: CycleEnv) returns (outcome: CycleOutcome)
      requires cfg.backupMaxCount >= 0 && c.backup.now.Valid()
      modifies this, store
      ensures run == old(run)
      ensures lastBackupTime == NextLastBackup(cfg, old(lastBackupTime), c)
      ensures CycleEffect(cfg, old(lastBackupTime), c, old(store.files), store.files, outcome)
    {
      if !c.pullOk {
        return PullFailed;
      }
      if c.stat.None? {
        return StatFailed;
      }
      if cfg.backupEnabled && Elapsed(c.checkTime, lastBackupTime) > DurationOf(cfg.backupInterval) {
        var b := store.CreateBackup(cfg.dbName, cfg.backupMaxCount, c.backup);
        lastBackupTime := Some(c.start);
        outcome := Synced(c.stat.value, Some(b));
      } else {
        outcome := Synced(c.stat.value, None);
      }
    }

    /** `RunSync`: `run` is checked only at the top of each iteration, and
        every iteration is one sync followed by one sleep, so a stop signal
        takes effect after the current sleep. The loop is bounded by the
        cycles `env` describes. `stores` records the snapshot store's
        contents before the first cycle and after each one: every cycle's
        sync step has the effect `CycleEffect` describes, from the last-backup
        time the earlier cycles left. */
    method RunSync(cfg: Config, env: seq<CycleEnv>) returns (trace: seq<Event>, ghost stores: seq<map<string, seq<Byte>>>)
      requires cfg.backupMaxCount >= 0
      requires forall i :: 0 <= i < |env| ==> env[i].backup.now.Valid()
      modifies this, store
      ensures |trace| == 2 * Iterations(old(run), env)
      ensures forall i :: 0 <= i < |trace| ==> (trace[i].SleepStep? <==> i % 2 == 1)
      ensures forall i :: 0 <= i < |trace| && trace[i].SleepStep? ==>
        trace[i].duration == DurationOf(cfg.syncInterval)
      ensures lastBackupTime == LastBackupAfter(cfg, old(lastBackupTime), env[..Iterations(old(run), env)])
      ensures Iterations(old(run), env) < |env| ==> !run
      ensures (forall k :: 0 <= k < |env| ==> !env[k].signalled) ==> run == old(run)
      ensures !cfg.backupEnabled ==> store.files == old(store.files)
      ensures CyclesEffect(cfg, old(lastBackupTime), env, Iterations(old(run), env), trace, stores)
      ensures stores[0] == old(store.files) && stores[|stores| - 1] == store.files
    {
      trace := [];
      stores := [store.files];
      var i := 0;
      ghost var stopped := -1;
      while run && i < |env|
        invariant 0 <= i <= |env|
        invariant run != old(run) ==> 0 <= stopped < i && env[stopped].signalled
        invariant i + Iterations(run, env[i..]) == Iterations(old(run), env)
        invariant |trace| == 2 * i
        invariant forall k :: 0 <= k < |trace| ==> (trace[k].SleepStep? <==> k % 2 == 1)
        invariant forall k :: 0 <= k < |trace| && trace[k].SleepStep? ==>
          trace[k].duration == DurationOf(cfg.syncInterval)
        invariant lastBackupTime == LastBackupAfter(cfg, old(lastBackupTime), env[..i])
        invariant !cfg.backupEnabled ==> store.files == old(store.files)
        invariant CyclesEffect(cfg, old(lastBackupTime), env, i, trace, stores)
        invariant stores[0] == old(store.files) && stores[i] == store.files
      {
        ghost var prev, before := lastBackupTime, store.files;
        var outcome := SyncDatabase(cfg, env[i]);
        CyclesEffectStep(cfg, old(lastBackupTime), env, i, trace, stores,
                         prev, before, outcome, DurationOf(cfg.syncInterval), store.files);
        assert env[..i + 1][..i] == env[..i];
        if env[i].signalled {
          Stop();
          stopped := i;
        }
        trace := trace + [SyncStep(outcome), SleepStep(DurationOf(cfg.syncInterval))];
        stores := stores + [store.files];
        assert env[i..][1..] == env[i + 1..];
        i := i + 1;
      }
      if i < |env| {
        assert Iterations(run, env[i..]) == 0;
      }
    }
  }
}

=== FILE: rows.dfy ===
/**
 * Row materialisation: the values a result set yields become one map from
 * column name to value per row, with byte-slice values turned into text.
 */
module Rows {
  import opened Wrappers

  /** The values the SQLite driver hands back through `interface{}`. Go
      strings and byte slices both hold bytes, so text is a byte sequence. */
  datatype Value =
    | Null
    | Integer(i: int)
    | Float(bits: bv64)
    | Boolean(b: bool)
    | Text(text: seq<Byte>)
    | Blob(bytes: seq<Byte>)
    | Time(unixNano: int)

  /** The type switch of the materialisation loop: a `[]uint8` becomes the
      string with the same bytes; everything else is kept as it is. */
  function Normalize(v: Value): (r: Value)
    ensures !r.Blob?
    ensures v.Blob? ==> r == Text(v.bytes)
    ensures !v.Blob? ==> r == v
  {
    match v
    case Blob(b) => Text(b)
    case _ => v
  }

  /** One step of the engine's row iterator: the row's values, or an error
      that makes `Scan` fail. */
  datatype RawRow = RawRow(values: seq<Value>) | Unreadable(err: string)

  /** `rows.Scan` into `width` destinations: fails on an unreadable row and
      when the row's width differs from the number of destinations. */
  function Scan(raw: RawRow, width: nat): (r: Option<seq<Value>>)
    ensures r.Some? <==> raw.RawRow? && |raw.values| == width
    ensures r.Some? ==> r.value == raw.values
  {
    if raw.RawRow? && |raw.values| == width then Some(raw.values) else None
  }

  /** The rows that scan, in order; the others are skipped. */
  function Scanned(raws: seq<RawRow>, width: nat): (vs: seq<seq<Value>>)
    ensures |vs| <= |raws|
    ensures forall k :: 0 <= k < |vs| ==> |vs[k]| == width
  {
    if raws == [] then []
    else
      var init := Scanned(raws[..|raws| - 1], width);
      match Scan(raws[|raws| - 1], width)
      case None => init
      case Some(v) => init + [v]
  }

  /** When every row scans, none is lost and the order is kept. */
  lemma {:induction false} ScannedAll(raws: seq<RawRow>, width: nat)
    requires forall k :: 0 <= k < |raws| ==> Scan(raws[k], width).Some?
    ensures |Scanned(raws, width)| == |raws|
    ensures forall k :: 0 <= k < |raws| ==> raws[k].RawRow? && Scanned(raws, width)[k] == raws[k].values
  {
    if raws != [] {
      ScannedAll(raws[..|raws| - 1], width);
    }
  }

  /** When no row has the expected width (as when the column list the data
      endpoint takes from `PRAGMA table_info` disagrees with the table), every
      row is dropped. */
  lemma {:induction false} ScannedNone(raws: seq<RawRow>, width: nat)
    requires forall k :: 0 <= k < |raws| ==> raws[k].Unreadable? || |raws[k].values| != width
    ensures Scanned(raws, width) == []
  {
    if raws != [] {
      ScannedNone(raws[..|raws| - 1], width);
    }
  }

  /** A single row contributes its values when it scans and nothing when it
      does not. */
  lemma ScannedSingle(raw: RawRow, width: nat)
    ensures Scan(raw, width).Some? ==> Scanned([raw], width) == [raw.values]
    ensures Scan(raw, width).None? ==> Scanned([raw], width) == []
  {
    assert [raw][..0] == [];
  }

  /** Scanning is row by row: the rows of two result sets scan to the rows of
      the first followed by the rows of the second. */
  lemma {:induction false} ScannedAppend(a: seq<RawRow>, b: seq<RawRow>, width: nat)
    ensures Scanned(a + b, width) == Scanned(a, width) + Scanned(b, width)
  {
    if b == [] {
      assert a + b == a;
    } else {
      var n := |b| - 1;
      assert (a + b)[..|a + b| - 1] == a + b[..n];
      assert (a + b)[|a + b| - 1] == b[n];
      ScannedAppend(a, b[..n], width);
    }
  }

  /** The position of the last column called `c`: with repeated names the
      later column's value is the one a map keeps. */
  function LastIndex(columns: seq<string>, c: string): (k: nat)
    requires c in columns
    ensures k < |columns| && columns[k] == c
    ensures forall j :: k < j < |columns| ==> columns[j] != c
  {
    if columns[|columns| - 1] == c then |columns| - 1
    else LastIndex(columns[..|columns| - 1], c)
  }

  /** `row` is the materialisation of `values` under `columns`: its keys are
      exactly the column names, and each holds the normalised value of the
      last column with that name. */
  ghost predicate RowOf(columns: seq<string>, values: seq<Value>, row: map<string, Value>)
    requires |values| == |columns|
  {
    && row.Keys == (set c | c in columns)
    && forall c :: c in row ==> row[c] == Normalize(values[LastIndex(columns, c)])
  }

  /** A materialised row never holds a byte slice. */
  lemma RowHasNoBlob(columns: seq<string>, values: seq<Value>, row: map<string, Value>)
    requires |values| == |columns| && RowOf(columns, values, row)
    ensures forall c :: c in row ==> !row[c].Blob?
  {
  }

  /** The inner loop: a fresh map filled column by column. */
  method MaterializeRow(columns: seq<string>, values: seq<Value>) returns (row: map<string, Value>)
    requires |values| == |columns|
    ensures RowOf(columns, values, row)
  {
    row := map[];
    var i := 0;
    while i < |columns|
      invariant 0 <= i <= |columns|
      invariant row.Keys == (set c | c in columns[..i])
      invariant forall c :: c in row ==> row[c] == Normalize(values[LastIndex(columns[..i], c)])
    {
      var v := values[i];
      match v {
        case Blob(b) => row := row[columns[i] := Text(b)];
        case _ => row := row[columns[i] := v];
      }
      assert columns[..i + 1][..i] == columns[..i];
      i := i + 1;
    }
    assert columns[..i] == columns;
  }

  /** The outer loop: rows that fail to scan are skipped, every other row is
      materialised and appended. */
  method MaterializeRows(columns: seq<string>, raws: seq<RawRow>) returns (rows: seq<map<string, Value>>)
    ensures |rows| == |Scanned(raws, |columns|)|
    ensures forall k :: 0 <= k < |rows| ==> RowOf(columns, Scanned(raws, |columns|)[k], rows[k])
  {
    rows := [];
    var i := 0;
    while i < |raws|
      invariant 0 <= i <= |raws|
      invariant |rows| == |Scanned(raws[..i], |columns|)|
      invariant forall k :: 0 <= k < |rows| ==> RowOf(columns, Scanned(raws[..i], |columns|)[k], rows[k])
    {
      assert raws[..i + 1][..i] == raws[..i];
      var raw := raws[i];
      if raw.RawRow? && |raw.values| == |columns| {
        var row := MaterializeRow(columns, raw.values);
        rows := rows + [row];
      }
      i := i + 1;
    }
    assert raws[..i] == raws;
  }

  /** The scanned values of a column of single-value rows, failures
      skipped. */
  function Somes<T(!new)>(s: seq<Option<T>>): (r: seq<T>)
    ensures |r| <= |s|
    ensures forall x :: x in r <==> Some(x) in s
  {
    if s == [] then []
    else
      var init := Somes(s[..|s| - 1]);
      assert s == s[..|s| - 1] + [s[|s| - 1]];
      match s[|s| - 1]
      case None => init
      case Some(x) => init + [x]
  }

  /** A single slot contributes its value when it holds one and nothing
      otherwise. */
  lemma SomesSingle<T(!new)>(o: Option<T>)
    ensures o.Some? ==> Somes([o]) == [o.value]
    ensures o.None? ==> Somes([o]) == []
  {
    assert [o][..0] == [];
  }

  /** Skipping failures is slot by slot: the values of two sequences are the
      values of the first followed by the values of the second. */
  lemma {:induction false} SomesAppend<T(!new)>(a: seq<Option<T>>, b: seq<Option<T>>)
    ensures Somes(a + b) == Somes(a) + Somes(b)
  {
    if b == [] {
      assert a + b == a;
    } else {
      var n := |b| - 1;
      assert (a + b)[..|a + b| - 1] == a + b[..n];
      assert (a + b)[|a + b| - 1] == b[n];
      SomesAppend(a, b[..n]);
    }
  }

  /** A scan loop that appends every value that scans and skips the rest. */
  method Collect<T(!new)>(s: seq<Option<T>>) returns (r: seq<T>)
    ensures r == Somes(s)
  {
    r := [];
    var i := 0;
    while i < |s|
      invariant 0 <= i <= |s|
      invariant r == Somes(s[..i])
    {
      assert s[..i + 1][..i] == s[..i];
      if s[i].Some? {
        r := r + [s[i].value];
      }
      i := i + 1;
    }
    assert s[..i] == s;
  }
}

=== FILE: snapshot.dfy ===
/**
 * The snapshot store: `createBackup` writes a timestamped copy of the local
 * database file into the `backups` directory and then deletes the oldest
 * copies beyond the configured maximum.
 */
module Snapshot {
  import opened Wrappers
  import Lex
  import Timestamp

  /** `filepath.Base` on a Unix system: the last element of the path after
      trailing slashes are dropped; "." for the empty path and "/" for a
      path made only of slashes. */
  function Base(path: string): (b: string)
    ensures b != []
    ensures '/' in b ==> b == "/"
    ensures path != [] && '/' !in path ==> b == path
  {
    if path == [] then "."
    else
      var p := TrimTrailingSlashes(path);
      if p == [] then "/" else AfterLastSlash(p)
  }

  function TrimTrailingSlashes(p: string): (r: string)
    ensures r == [] || r[|r| - 1] != '/'
    ensures '/' !in p ==> r == p
  {
    if p != [] && p[|p| - 1] == '/' then TrimTrailingSlashes(p[..|p| - 1]) else p
  }

  function AfterLastSlash(p: string): (r: string)
    ensures '/' !in r
    ensures '/' !in p ==> r == p
    ensures p != [] && p[|p| - 1] != '/' ==> r != []
  {
    if p == [] || p[|p| - 1] == '/' then []
    else
      assert p == p[..|p| - 1] + [p[|p| - 1]];
      AfterLastSlash(p[..|p| - 1]) + [p[|p| - 1]]
  }

  /** The part of a backup name before the underscore. `filepath.Join`
      cleans "backups//_..." to "backups/_...", so a base of "/" leaves
      nothing in front of the underscore, both in the name and in the
      pattern. */
  function Stem(dbPath: string): (s: string)
    ensures '/' !in s
    ensures Base(dbPath) != "/" ==> s == Base(dbPath)
  {
    if Base(dbPath) == "/" then "" else Base(dbPath)
  }

  /** The file name of a backup inside the `backups` directory: it holds no
      slash, so it names a file directly in that directory, and it always
      matches the pattern retention lists (defined below). */
  function Entry(dbPath: string, now: Timestamp.DateTime): (e: string)
    requires now.Valid()
    ensures '/' !in e
    ensures Matches(Stem(dbPath), e)
  {
    FormatHasNoSlash(now);
    assert (Stem(dbPath) + "_" + Timestamp.Format(now) + ".db")[|Stem(dbPath)| + 1..|Stem(dbPath)| + 1 + |Timestamp.Format(now)|]
      == Timestamp.Format(now);
    Stem(dbPath) + "_" + Timestamp.Format(now) + ".db"
  }

  /** The path `createBackup` writes. */
  function BackupPath(dbPath: string, now: Timestamp.DateTime): (p: string)
    requires now.Valid()
    ensures Base(dbPath) != "/" ==>
      p == "backups/" + Base(dbPath) + "_" + Timestamp.Format(now) + ".db"
  {
    "backups/" + Entry(dbPath, now)
  }

  /** Whether a file name in the `backups` directory matches the glob
      pattern `<stem>_*.db`; `*` matches any run of characters other
      than '/'. A match is never the bare stem and, when the stem holds no
      slash, names a file directly in the directory. */
  predicate Matches(stem: string, name: string)
    ensures Matches(stem, name) ==> |name| > |stem| && name[|stem|] == '_'
    ensures Matches(stem, name) && '/' !in stem ==> '/' !in name
  {
    assert |name| >= |stem| + 4 ==>
      name == name[..|stem| + 1] + name[|stem| + 1..|name| - 3] + name[|name| - 3..];
    && |name| >= |stem| + 4
    && name[..|stem| + 1] == stem + "_"
    && name[|name| - 3..] == ".db"
    && '/' !in name[|stem| + 1..|name| - 3]
  }

  /** The names `filepath.Glob` reports, as a set. */
  function Matching(stem: string, names: set<string>): (m: set<string>)
    ensures m <= names
    ensures forall n :: n in names && Matches(stem, n) ==> n in m
    ensures forall n :: n in m ==> Matches(stem, n)
  {
    set n | n in names && Matches(stem, n)
  }

  /** Backup names of one database sort in chronological order, and two
      backups collide on a name exactly when they are taken in the same
      second (the later write then replaces the earlier file). */
  lemma EntryOrder(dbPath: string, a: Timestamp.DateTime, b: Timestamp.DateTime)
    requires a.FourDigitYear() && b.FourDigitYear()
    ensures Lex.Less(Entry(dbPath, a), Entry(dbPath, b)) <==> Timestamp.Before(a, b)
    ensures Entry(dbPath, a) == Entry(dbPath, b) <==> a == b
  {
    var p := Stem(dbPath) + "_";
    var fa, fb := Timestamp.Format(a), Timestamp.Format(b);
    Timestamp.FormatShape(a);
    Timestamp.FormatShape(b);
    Timestamp.FormatOrder(a, b);
    assert Entry(dbPath, a) == p + (fa + ".db");
    assert Entry(dbPath, b) == p + (fb + ".db");
    Lex.LessCommonPrefix(p, fa + ".db", fb + ".db");
    Lex.LessFixedWidthConcat(fa, ".db", fb, ".db");
    Lex.LessIrreflexive(".db");
    Timestamp.ConcatInjective(p, fa + ".db", p, fb + ".db");
    Timestamp.ConcatInjective(fa, ".db", fb, ".db");
  }

  lemma FormatHasNoSlash(now: Timestamp.DateTime)
    requires now.Valid()
    ensures '/' !in Timestamp.Format(now)
  {
    var t := now;
    assert Timestamp.Format(t) == Timestamp.Pad(t.year, 4) + Timestamp.Pad(t.month, 2) + Timestamp.Pad(t.day, 2) + "_"
      + Timestamp.Pad(t.hour, 2) + Timestamp.Pad(t.minute, 2) + Timestamp.Pad(t.second, 2);
  }

  /**
   * What retention deletes, stated without reference to sorting: `stale`
   * lists, in increasing order, exactly `n - maxCount` of the `n` matching
   * names (none when `n <= maxCount`), and every one of them is smaller
   * than every matching name that is kept.
   */
  ghost predicate IsStaleSelection(stale: seq<string>, matching: set<string>, maxCount: nat)
  {
    && Lex.StrictlySorted(stale)
    && (forall i :: 0 <= i < |stale| ==> stale[i] in matching)
    && |stale| == (if |matching| > maxCount then |matching| - maxCount else 0)
    && (forall i, y :: 0 <= i < |stale| && y in matching && y !in stale ==> Lex.Less(stale[i], y))
  }

  lemma {:induction false} StrictlySortedCardinality(s: seq<string>)
    requires Lex.StrictlySorted(s)
    ensures |set x | x in s| == |s|
  {
    if s != [] {
      var t := s[1..];
      assert Lex.StrictlySorted(t);
      StrictlySortedCardinality(t);
      assert s[0] !in t by {
        forall j | 0 <= j < |t| ensures t[j] != s[0] {
          assert Lex.Less(s[0], s[j + 1]);
          Lex.LessIrreflexive(s[0]);
        }
      }
      assert (set x | x in s) == {s[0]} + (set x | x in t);
    }
  }

  /** Retention keeps the newest: after the stale names go, exactly
      `min(n, maxCount)` matching names remain, every one of them later in
      string (and so chronological) order than every name removed. */
  lemma RetentionKeepsNewest(stale: seq<string>, matching: set<string>, maxCount: nat)
    requires IsStaleSelection(stale, matching, maxCount)
    ensures var kept := matching - set x | x in stale;
      && |kept| == (if |matching| > maxCount then maxCount else |matching|)
      && (forall x, y :: x in stale && y in kept ==> Lex.Less(x, y))
  {
    var removed := set x | x in stale;
    StrictlySortedCardinality(stale);
    assert removed <= matching;
    assert |matching - removed| == |matching| - |removed|;
    forall x, y | x in stale && y in matching - removed
      ensures Lex.Less(x, y)
    {
      var i :| 0 <= i < |stale| && stale[i] == x;
    }
  }

  /** When `maxCount` is at least one and no matching name sorts after the
      newest backup's name, that backup survives retention. */
  lemma NewestSurvives(newest: string, stale: seq<string>, matching: set<string>, maxCount: nat)
    requires IsStaleSelection(stale, matching, maxCount)
    requires maxCount >= 1 && newest in matching
    requires forall y :: y in matching ==> Lex.LessOrEqual(y, newest)
    ensures newest !in stale
  {
    if newest in stale {
      var removed := set x | x in stale;
      StrictlySortedCardinality(stale);
      assert removed <= matching;
      assert |matching - removed| >= 1;
      var y :| y in matching - removed;
      var i :| 0 <= i < |stale| && stale[i] == newest;
      assert Lex.Less(newest, y);
      Lex.LessAsymmetric(newest, y);
      if y == newest {
        assert false;
      }
      assert false;
    }
  }

  /** Two selections that meet the specification are the same sequence:
      the specification leaves the deleted names no freedom. */
  lemma {:induction false} StaleSelectionUnique(s1: seq<string>, s2: seq<string>, matching: set<string>, maxCount: nat)
    requires IsStaleSelection(s1, matching, maxCount)
    requires IsStaleSelection(s2, matching, maxCount)
    ensures s1 == s2
  {
    forall i | 0 <= i < |s1|
      ensures s1[i] == s2[i]
    {
      StaleAt(s1, s2, matching, maxCount, i);
    }
  }

  lemma {:induction false} StaleAt(s1: seq<string>, s2: seq<string>, matching: set<string>, maxCount: nat, i: nat)
    requires IsStaleSelection(s1, matching, maxCount)
    requires IsStaleSelection(s2, matching, maxCount)
    requires i < |s1|
    ensures s1[i] == s2[i]
    decreases i
  {
    forall j | 0 <= j < i ensures s1[j] == s2[j] {
      StaleAt(s1, s2, matching, maxCount, j);
    }
    assert s1[..i] == s2[..i];
    // Neither sequence can hold its i-th element at a later position of the other.
    if s1[i] != s2[i] {
      Lex.LessTotal(s1[i], s2[i]);
      if Lex.Less(s1[i], s2[i]) {
        SmallerIsListed(s2, s1[i], i, matching, maxCount);
        Lex.LessIrreflexive(s1[i]);
      } else {
        SmallerIsListed(s1, s2[i], i, matching, maxCount);
        Lex.LessIrreflexive(s2[i]);
      }
    }
  }

  /** A matching name smaller than the i-th stale name must itself be stale,
      at an index before i. */
  lemma SmallerIsListed(s: seq<string>, x: string, i: nat, matching: set<string>, maxCount: nat)
    requires IsStaleSelection(s, matching, maxCount)
    requires i < |s| && x in matching && Lex.Less(x, s[i])
    ensures exists j :: 0 <= j < i && s[j] == x
  {
    if x !in s {
      Lex.LessAsymmetric(x, s[i]);
      assert false;
    }
    var j :| 0 <= j < |s| && s[j] == x;
    if j >= i {
      if j == i {
        Lex.LessIrreflexive(x);
      } else {
        Lex.LessAsymmetric(s[i], s[j]);
      }
      assert false;
    }
  }

  /** A multiset in which nothing occurs twice comes from a sequence without
      repetitions. */
  lemma NoRepeats(s: seq<string>)
    requires forall x :: multiset(s)[x] <= 1
    ensures forall i, j :: 0 <= i < j < |s| ==> s[i] != s[j]
  {
    forall i, j | 0 <= i < j < |s|
      ensures s[i] != s[j]
    {
      RepeatCounts(s, i, j);
    }
  }

  lemma RepeatCounts(s: seq<string>, i: nat, j: nat)
    requires i < j < |s|
    ensures s[i] == s[j] ==> multiset(s)[s[i]] >= 2
  {
    assert s == s[..i] + [s[i]] + s[i + 1..j] + [s[j]] + s[j + 1..];
  }

  /** The first `n - maxCount` names of the sorted listing are the stale
      selection. */
  lemma SortedPrefixIsStale(sorted: seq<string>, matching: set<string>, maxCount: nat)
    requires Lex.StrictlySorted(sorted)
    requires forall x :: x in sorted <==> x in matching
    requires |sorted| == |matching|
    ensures IsStaleSelection(if |sorted| > maxCount then sorted[..|sorted| - maxCount] else [],
                             matching, maxCount)
  {
    var stale := if |sorted| > maxCount then sorted[..|sorted| - maxCount] else [];
    forall i, y | 0 <= i < |stale| && y in matching && y !in stale
      ensures Lex.Less(stale[i], y)
    {
      var j :| 0 <= j < |sorted| && sorted[j] == y;
      assert stale == sorted[..|stale|];
    }
  }

  datatype BackupOutcome =
    | MkdirFailed
    | ReadFailed
    | WriteFailed
    | GlobFailed
      /** The new backup's path and the stale names whose removal was
          attempted, in the order attempted. */
    | Created(path: string, removed: seq<string>)

  /** What the operating system and the clock answer during one call:
      whether `os.MkdirAll` succeeds, the calendar time `time.Now()` reads,
      the bytes `os.ReadFile` returns (None on error), whether `os.WriteFile`
      and `filepath.Glob` succeed, and which removals fail. */
  datatype BackupEnv = BackupEnv(
    mkdirOk: bool,
    now: Timestamp.DateTime,
    source: Option<seq<Byte>>,
    writeOk: bool,
    globOk: bool,
    removeFails: set<string>)
  {
    /** The copy reached the disk. */
    predicate Written()
    {
      mkdirOk && source.Some? && writeOk
    }
  }

  /**
   * The effect of one `createBackup` call on the directory `before`, given
   * what the environment answers: each failing step returns before anything
   * later happens; a failed glob leaves the new copy and deletes nothing;
   * otherwise the copy is written (replacing a same-second one) and removal
   * is attempted on exactly the stale selection, a failed removal leaving
   * its file.
   */
  ghost predicate BackupEffect(before: map<string, seq<Byte>>, dbPath: string, maxCount: nat, env: BackupEnv,
                               after: map<string, seq<Byte>>, outcome: BackupOutcome)
    requires env.now.Valid()
  {
    var entry := Entry(dbPath, env.now);
    && (!env.Written() ==> after == before)
    && (!env.mkdirOk ==> outcome == MkdirFailed)
    && (env.mkdirOk && env.source.None? ==> outcome == ReadFailed)
    && (env.mkdirOk && env.source.Some? && !env.writeOk ==> outcome == WriteFailed)
    && (env.Written() && !env.globOk ==>
          outcome == GlobFailed && after == before[entry := env.source.value])
    && (env.Written() && env.globOk ==>
          && outcome.Created?
          && outcome.path == BackupPath(dbPath, env.now)
          && IsStaleSelection(outcome.removed, Matching(Stem(dbPath), before.Keys + {entry}), maxCount)
          && after == before[entry := env.source.value] - (set x | x in outcome.removed && x !in env.removeFails))
  }

  /** Writing `k` and deleting `r` leaves the old names with `k` and without `r`. */
  lemma KeysAfterWrite(m: map<string, seq<Byte>>, k: string, v: seq<Byte>, r: set<string>)
    ensures (m[k := v] - r).Keys == (m.Keys + {k}) - r
  {
  }

  /** Deleting names commutes with selecting a database's copies. */
  lemma MatchingMinus(stem: string, names: set<string>, r: set<string>)
    ensures Matching(stem, names - r) == Matching(stem, names) - r
  {
  }

  /**
   * The copies of a database left after writing `entry` and deleting the
   * stale selection: `maxCount` of them (or all, when there were no more),
   * each newer than every deleted one, with the new entry among them when
   * `maxCount >= 1` and no copy sorts after it.
   */
  lemma RetainedCopies(before: map<string, seq<Byte>>, stem: string, entry: string, v: seq<Byte>,
                       maxCount: nat, stale: seq<string>, after: map<string, seq<Byte>>)
    requires entry in Matching(stem, before.Keys + {entry})
    requires IsStaleSelection(stale, Matching(stem, before.Keys + {entry}), maxCount)
    requires after == before[entry := v] - set x | x in stale
    ensures var matching := Matching(stem, before.Keys + {entry});
      var kept := Matching(stem, after.Keys);
      && kept == matching - set x | x in stale
      && |kept| == (if |matching| > maxCount then maxCount else |matching|)
      && (forall x, y :: x in stale && y in kept ==> Lex.Less(x, y))
      && ((maxCount >= 1 && forall y :: y in matching ==> Lex.LessOrEqual(y, entry)) ==> entry in kept)
  {
    var matching := Matching(stem, before.Keys + {entry});
    var removed := set x | x in stale;
    KeysAfterWrite(before, entry, v, removed);
    MatchingMinus(stem, before.Keys + {entry}, removed);
    RetentionKeepsNewest(stale, matching, maxCount);
    if maxCount >= 1 && forall y :: y in matching ==> Lex.LessOrEqual(y, entry) {
      NewestSurvives(entry, stale, matching, maxCount);
    }
  }

  /** A created backup whose removals all succeed has the retention effect
      of `RetainedCopies` on the database's copies. */
  lemma BackupRetains(before: map<string, seq<Byte>>, dbPath: string, maxCount: nat, env: BackupEnv,
                      after: map<string, seq<Byte>>, outcome: BackupOutcome)
    requires env.now.Valid()
    requires BackupEffect(before, dbPath, maxCount, env, after, outcome)
    requires outcome.Created? && env.removeFails == {}
    ensures var entry := Entry(dbPath, env.now);
      var matching := Matching(Stem(dbPath), before.Keys + {entry});
      var kept := Matching(Stem(dbPath), after.Keys);
      && kept == matching - set x | x in outcome.removed
      && |kept| == (if |matching| > maxCount then maxCount else |matching|)
      && (forall x, y :: x in outcome.removed && y in kept ==> Lex.Less(x, y))
      && ((maxCount >= 1 && forall y :: y in matching ==> Lex.LessOrEqual(y, entry)) ==> entry in kept)
  {
    var entry := Entry(dbPath, env.now);
    assert env.Written() && env.globOk;
    assert (set x | x in outcome.removed && x !in env.removeFails) == set x | x in outcome.removed;
    RetainedCopies(before, Stem(dbPath), entry, env.source.value, maxCount, outcome.removed, after);
  }

  /** The `backups` directory: file name to contents. */
  class SnapshotStore {
    var files: map<string, seq<Byte>>

    constructor (initial: map<string, seq<Byte>>)
      ensures files == initial
    {
      files := initial;
    }

    /** `filepath.Glob` followed by `sort.Strings`: the matching names in
        increasing order. */
    method ListSorted(stem: string) returns (sorted: seq<string>)
      ensures Lex.StrictlySorted(sorted)
      ensures forall x :: x in sorted <==> x in Matching(stem, files.Keys)
      ensures |sorted| == |Matching(stem, files.Keys)|
    {
      var pending := Matching(stem, files.Keys);
      var listed: seq<string> := [];
      while pending != {}
        invariant multiset(listed) + multiset(pending) == multiset(Matching(stem, files.Keys))
        decreases |pending|
      {
        var x :| x in pending;
        listed := listed + [x];
        assert multiset(pending) == multiset(pending - {x}) + multiset{x};
        pending := pending - {x};
      }
      assert multiset(listed) == multiset(Matching(stem, files.Keys));
      sorted := Lex.Sort(listed);
      assert forall x :: multiset(sorted)[x] == multiset(Matching(stem, files.Keys))[x];
      NoRepeats(sorted);
      Lex.SortedDistinctIsStrict(sorted);
      forall x ensures x in sorted <==> x in Matching(stem, files.Keys) {
        assert x in sorted <==> x in multiset(sorted);
      }
      assert |multiset(Matching(stem, files.Keys))| == |Matching(stem, files.Keys)|;
    }

    /** The deletion loop: `os.Remove` is attempted on every stale name in
        order; a removal that fails leaves its file and does not stop the
        loop. */
    method RemoveAll(stale: seq<string>, removeFails: set<string>) returns (removed: seq<string>)
      modifies this
      ensures removed == stale
      ensures files == old(files) - (set x | x in stale && x !in removeFails)
    {
      removed := [];
      var i := 0;
      while i < |stale|
        invariant 0 <= i <= |stale|
        invariant removed == stale[..i]
        invariant files == old(files) - (set x | x in stale[..i] && x !in removeFails)
      {
        if stale[i] !in removeFails {
          files := files - {stale[i]};
        }
        removed := removed + [stale[i]];
        i := i + 1;
        assert stale[..i] == stale[..i - 1] + [stale[i - 1]];
      }
      assert stale[..|stale|] == stale;
    }

    /** `createBackup(dbPath, maxCount)`: each failing step returns before
        anything later happens; after a successful write the stale matching
        backups are removed one by one, a failed removal being ignored. */
    method CreateBackup(dbPath: string, maxCount: nat, env: BackupEnv) returns (outcome: BackupOutcome)
      requires env.now.Valid()
      modifies this
      ensures BackupEffect(old(files), dbPath, maxCount, env, files, outcome)
    {
      if !env.mkdirOk {
        return MkdirFailed;
      }
      var entry := Entry(dbPath, env.now);
      if env.source.None? {
        return ReadFailed;
      }
      if !env.writeOk {
        return WriteFailed;
      }
      files := files[entry := env.source.value];
      assert files.Keys == old(files).Keys + {entry};
      if !env.globOk {
        return GlobFailed;
      }
      var sorted := ListSorted(Stem(dbPath));
      var stale: seq<string> := [];
      if |sorted| > maxCount {
        stale := sorted[..|sorted| - maxCount];
      }
      SortedPrefixIsStale(sorted, Matching(Stem(dbPath), files.Keys), maxCount);
      var removed := RemoveAll(stale, env.removeFails);
      outcome := Created("backups/" + entry, removed);
    }
  }
}

=== FILE: sqltext.dfy ===
/**
 * Statement text in the query gateway: classifying a statement as a read
 * (`SELECT ...`) or a mutation.
 */
module SqlText {

  /** The characters `strings.TrimSpace` removes: ASCII white space and the
      other code points Unicode's White_Space property lists. None of them is
      a letter, so trimming never eats into a keyword. */
  predicate IsSpace(c: char)
    ensures IsSpace(c) ==> !('a' <= c <= 'z') && !('A' <= c <= 'Z')
  {
    || c == ' ' || c == '\t' || c == '\n' || c == '\U{0B}' || c == '\U{0C}' || c == '\r'
    || c == '\U{85}' || c == '\U{A0}' || c == '\U{1680}'
    || ('\U{2000}' <= c <= '\U{200A}')
    || c == '\U{2028}' || c == '\U{2029}' || c == '\U{202F}' || c == '\U{205F}' || c == '\U{3000}'
  }

  /** Upper-casing of one character, restricted to ASCII letters: no
      lower-case ASCII letter survives, every other character is kept, and
      white space stays white space. */
  function UpperChar(c: char): (r: char)
    ensures !('a' <= r <= 'z')
    ensures !('a' <= c <= 'z') ==> r == c
    ensures 'a' <= c <= 'z' ==> 'A' <= r <= 'Z'
    ensures IsSpace(r) <==> IsSpace(c)
  {
    if 'a' <= c <= 'z' then (c as int - 32) as char else c
  }

  function ToUpper(s: string): (r: string)
    ensures |r| == |s|
    ensures forall i :: 0 <= i < |s| ==> r[i] == UpperChar(s[i])
  {
    seq(|s|, i requires 0 <= i < |s| => UpperChar(s[i]))
  }

  function TrimLeft(s: string): string
  {
    if s != [] && IsSpace(s[0]) then TrimLeft(s[1..]) else s
  }

  function TrimRight(s: string): (r: string)
    ensures |r| <= |s| && r == s[..|r|]
    ensures forall i :: |r| <= i < |s| ==> IsSpace(s[i])
    ensures r != [] ==> !IsSpace(r[|r| - 1])
  {
    if s != [] && IsSpace(s[|s| - 1]) then TrimRight(s[..|s| - 1]) else s
  }

  /** `strings.TrimSpace`: the slice of `s` left after dropping its leading
      white space and then its trailing white space; it neither starts nor
      ends with white space. */
  function TrimSpace(s: string): (r: string)
    ensures LeadingSpaces(s) + |r| <= |s|
    ensures r == s[LeadingSpaces(s)..LeadingSpaces(s) + |r|]
    ensures forall i :: LeadingSpaces(s) + |r| <= i < |s| ==> IsSpace(s[i])
    ensures r != [] ==> !IsSpace(r[0]) && !IsSpace(r[|r| - 1])
  {
    TrimLeftDrops(s);
    TrimRight(TrimLeft(s))
  }

  predicate HasPrefix(s: string, p: string)
  {
    |p| <= |s| && s[..|p|] == p
  }

  /** The gateway's routing rule: the read path is taken exactly when the
      upper-cased, trimmed statement starts with "SELECT". */
  predicate IsReadQuery(q: string)
    ensures IsReadQuery(q) ==> |q| >= 6
  {
    HasPrefix(TrimSpace(ToUpper(q)), "SELECT")
  }

  /** The number of white-space characters the statement starts with. */
  function LeadingSpaces(s: string): (k: nat)
    ensures k <= |s|
    ensures forall i :: 0 <= i < k ==> IsSpace(s[i])
    ensures k < |s| ==> !IsSpace(s[k])
  {
    if s != [] && IsSpace(s[0]) then 1 + LeadingSpaces(s[1..]) else 0
  }

  lemma {:induction false} TrimLeftDrops(s: string)
    ensures TrimLeft(s) == s[LeadingSpaces(s)..]
  {
    if s != [] && IsSpace(s[0]) {
      TrimLeftDrops(s[1..]);
    }
  }

  lemma {:induction false} UpperKeepsSpaces(s: string)
    ensures LeadingSpaces(ToUpper(s)) == LeadingSpaces(s)
  {
    if s != [] {
      assert ToUpper(s)[1..] == ToUpper(s[1..]);
      UpperKeepsSpaces(s[1..]);
    }
  }

  /** Trailing white space never decides a prefix made of other
      characters. */
  lemma TrimRightKeepsPrefix(t: string, p: string)
    requires forall i :: 0 <= i < |p| ==> !IsSpace(p[i])
    ensures HasPrefix(TrimRight(t), p) <==> HasPrefix(t, p)
  {
    var r := TrimRight(t);
    if HasPrefix(t, p) && |p| > 0 {
      assert t[|p| - 1] == p[|p| - 1];
      assert !IsSpace(t[|p| - 1]);
      assert |p| <= |r|;
      assert r[..|p|] == t[..|p|];
    }
  }

  lemma UpperSlice(q: string, a: nat, b: nat)
    requires a <= b <= |q|
    ensures ToUpper(q)[a..b] == ToUpper(q[a..b])
  {
  }

  /** An independent statement of the routing rule: the six characters after
      the leading white space, upper-cased, are SELECT. */
  lemma ReadQueryIff(q: string)
    ensures IsReadQuery(q) <==>
      LeadingSpaces(q) + 6 <= |q| && ToUpper(q[LeadingSpaces(q)..LeadingSpaces(q) + 6]) == "SELECT"
  {
    var u := ToUpper(q);
    var k := LeadingSpaces(q);
    var t := u[k..];
    StepA(q);
    assert TrimSpace(u) == TrimRight(t);
    StepB(t);
    assert IsReadQuery(q) == HasPrefix(t, "SELECT");
    StepC(q, k);
  }

  lemma StepA(q: string)
    ensures TrimLeft(ToUpper(q)) == ToUpper(q)[LeadingSpaces(q)..]
  {
    UpperKeepsSpaces(q);
    TrimLeftDrops(ToUpper(q));
  }

  lemma StepB(t: string)
    ensures HasPrefix(TrimRight(t), "SELECT") <==> HasPrefix(t, "SELECT")
  {
    TrimRightKeepsPrefix(t, "SELECT");
  }

  lemma StepC(q: string, k: nat)
    requires k <= |q|
    ensures HasPrefix(ToUpper(q)[k..], "SELECT") <==> k + 6 <= |q| && ToUpper(q[k..k + 6]) == "SELECT"
  {
    if k + 6 <= |q| {
      UpperSlice(q, k, k + 6);
      assert ToUpper(q)[k..][..6] == ToUpper(q)[k..k + 6];
    }
  }

  /** A lower-case statement takes the read path. */
  lemma ReadLowerCase()
    ensures IsReadQuery("select * from t")
  {
    ReadAfterBlanks("", "select", " * from t");
    assert "" + "select" + " * from t" == "select * from t";
  }

  /** Any number of leading blanks is skipped. */
  lemma ReadAfterLeadingBlanks(n: nat)
    ensures IsReadQuery(seq(n, _ => ' ') + "SELECT 1")
  {
    var blanks := seq(n, _ => ' ');
    ReadAfterBlanks(blanks, "SELECT", " 1");
    assert blanks + "SELECT" + " 1" == blanks + "SELECT 1";
  }

  /** Mixed case is accepted. */
  lemma ReadMixedCase()
    ensures IsReadQuery("SeLeCt 1")
  {
    ReadAfterBlanks("", "SeLeCt", " 1");
    assert "" + "SeLeCt" + " 1" == "SeLeCt 1";
  }

  /** Only the prefix is checked, so a longer word such as SELECTED takes the
      read path too. */
  lemma ReadLongerWord()
    ensures IsReadQuery("SELECTED")
  {
    ReadAfterBlanks("", "SELECT", "ED");
    assert "" + "SELECT" + "ED" == "SELECTED";
  }

  /** Statements the routing rule sends to the mutate path, a statement
      opened by a WITH clause included. */
  lemma MutatePathExamples()
    ensures !IsReadQuery("DELETE FROM t")
    ensures !IsReadQuery("insert into t values (1)")
    ensures !IsReadQuery("update t set x=1")
    ensures !IsReadQuery("WITH x AS (SELECT 1) SELECT * FROM x")
  {
    MutateFirstLetter("DELETE FROM t");
    MutateFirstLetter("insert into t values (1)");
    MutateFirstLetter("update t set x=1");
    MutateFirstLetter("WITH x AS (SELECT 1) SELECT * FROM x");
  }

  /** Blanks followed by a word that upper-cases to SELECT: the read
      path, whatever follows. */
  lemma ReadAfterBlanks(blanks: string, word: string, rest: string)
    requires forall i :: 0 <= i < |blanks| ==> blanks[i] == ' '
    requires |word| == 6 && ToUpper(word) == "SELECT"
    ensures IsReadQuery(blanks + word + rest)
  {
    var q := blanks + word + rest;
    var k := |blanks|;
    assert q[k..k + 6] == word;
    assert UpperChar(q[k]) == 'S';
    forall i | 0 <= i < k
      ensures IsSpace(q[i])
    {
      assert q[i] == blanks[i];
    }
    LeadingSpacesAt(q, k);
    ReadQueryIff(q);
  }

  lemma {:induction false} LeadingSpacesAt(q: string, k: nat)
    requires k < |q|
    requires forall i :: 0 <= i < k ==> IsSpace(q[i])
    requires !IsSpace(q[k])
    ensures LeadingSpaces(q) == k
  {
    if k > 0 {
      LeadingSpacesAt(q[1..], k - 1);
    }
  }

  lemma MutateFirstLetter(q: string)
    requires |q| > 0 && !IsSpace(q[0]) && UpperChar(q[0]) != 'S'
    ensures !IsReadQuery(q)
  {
    ReadQueryIff(q);
    if |q| >= 6 {
      assert ToUpper(q[0..6])[0] == UpperChar(q[0]);
    }
  }
}

=== FILE: timestamp.dfy ===
/**
 * The backup timestamp: Go's layout "20060102_150405" applied to a
 * calendar reading of the clock, i.e. YYYYMMDD_HHMMSS with every field
 * zero-padded to a fixed width.
 */
module Timestamp {
  import Lex

  /** A broken-down calendar time at second granularity (what `time.Now()`
      gives once expressed in the local calendar). */
  datatype DateTime = DateTime(year: int, month: int, day: int, hour: int, minute: int, second: int)
  {
    /** Ranges every Go `time.Time` respects; years before 0 are not modelled. */
    predicate Valid()
    {
      && 0 <= year
      && 1 <= month <= 12 && 1 <= day <= 31
      && 0 <= hour < 24 && 0 <= minute < 60 && 0 <= second < 60
    }

    /** Years up to 9999 print in exactly four digits. */
    predicate FourDigitYear()
    {
      Valid() && year <= 9999
    }
  }

  /** Chronological order of two calendar readings. */
  predicate Before(a: DateTime, b: DateTime)
  {
    if a.year != b.year then a.year < b.year
    else if a.month != b.month then a.month < b.month
    else if a.day != b.day then a.day < b.day
    else if a.hour != b.hour then a.hour < b.hour
    else if a.minute != b.minute then a.minute < b.minute
    else a.second < b.second
  }

  function Pow10(w: nat): (p: nat)
    ensures p >= 1
  {
    if w == 0 then 1 else 10 * Pow10(w - 1)
  }

  function DigitChar(d: nat): char
    requires d < 10
  {
    (48 + d) as char
  }

  predicate IsDigit(c: char)
  {
    '0' <= c <= '9'
  }

  /** The last `w` decimal digits of `n`, most significant first. */
  function Fixed(n: nat, w: nat): (s: string)
    ensures |s| == w
    ensures forall i :: 0 <= i < w ==> IsDigit(s[i])
  {
    if w == 0 then [] else Fixed(n / 10, w - 1) + [DigitChar(n % 10)]
  }

  /** The decimal digits of `n` without padding. */
  function Digits(n: nat): (s: string)
    ensures |s| >= 1
    ensures forall i :: 0 <= i < |s| ==> IsDigit(s[i])
  {
    if n < 10 then [DigitChar(n)] else Digits(n / 10) + [DigitChar(n % 10)]
  }

  /** A number that does not fit in `w` digits needs more than `w`. */
  lemma {:induction false} DigitsWide(n: nat, w: nat)
    requires n >= Pow10(w)
    ensures |Digits(n)| > w
  {
    if w > 0 {
      DigitsWide(n / 10, w - 1);
    }
  }

  /** Go's zero-padded field: only digits, never fewer than `w` of them, and
      exactly `w` when the number fits. */
  function Pad(n: nat, w: nat): (s: string)
    ensures |s| >= w
    ensures n < Pow10(w) ==> |s| == w
    ensures forall i :: 0 <= i < |s| ==> IsDigit(s[i])
  {
    if n < Pow10(w) then Fixed(n, w)
    else
      DigitsWide(n, w);
      Digits(n)
  }

  /** The layout "20060102_150405": never shorter than 15 characters, and
      exactly 15 for four-digit years. */
  function Format(t: DateTime): (s: string)
    requires t.Valid()
    ensures |s| >= 15
    ensures t.FourDigitYear() ==> |s| == 15
  {
    Pad(t.year, 4) + Pad(t.month, 2) + Pad(t.day, 2) + "_"
      + Pad(t.hour, 2) + Pad(t.minute, 2) + Pad(t.second, 2)
  }

  /** For numbers that fit the width, fixed-width digit strings compare
      exactly as the numbers do, and are equal exactly when the numbers are. */
  lemma {:induction false} FixedOrder(a: nat, b: nat, w: nat)
    requires a < Pow10(w) && b < Pow10(w)
    ensures Lex.Less(Fixed(a, w), Fixed(b, w)) <==> a < b
    ensures Fixed(a, w) == Fixed(b, w) <==> a == b
  {
    if w == 0 {
      assert a == 0 && b == 0;
      Lex.LessIrreflexive([]);
    } else {
      var ha, hb := Fixed(a / 10, w - 1), Fixed(b / 10, w - 1);
      var la, lb := [DigitChar(a % 10)], [DigitChar(b % 10)];
      assert a / 10 < Pow10(w - 1) && b / 10 < Pow10(w - 1);
      FixedOrder(a / 10, b / 10, w - 1);
      Lex.LessFixedWidthConcat(ha, la, hb, lb);
      assert Lex.Less(la, lb) <==> a % 10 < b % 10;
      assert ha + la == hb + lb <==> ha == hb && la == lb by {
        if ha + la == hb + lb {
          assert (ha + la)[..w - 1] == ha && (hb + lb)[..w - 1] == hb;
          assert (ha + la)[w - 1] == la[0] && (hb + lb)[w - 1] == lb[0];
        }
      }
      assert a == 10 * (a / 10) + a % 10 && b == 10 * (b / 10) + b % 10;
    }
  }

  /** Shape of the timestamp for years 0000-9999: 15 characters, eight
      digits, an underscore, six digits. */
  lemma FormatShape(t: DateTime)
    requires t.FourDigitYear()
    ensures |Format(t)| == 15
    ensures Format(t)[8] == '_'
    ensures forall i :: 0 <= i < 15 && i != 8 ==> IsDigit(Format(t)[i])
  {
    assert Pow10(2) == 100 && Pow10(4) == 10000;
  }

  /** Splits a timestamp into its fields' fixed-width renderings. */
  lemma FormatFields(t: DateTime)
    requires t.FourDigitYear()
    ensures Format(t) == Fixed(t.year, 4) + (Fixed(t.month, 2) + (Fixed(t.day, 2) + ("_"
      + (Fixed(t.hour, 2) + (Fixed(t.minute, 2) + Fixed(t.second, 2))))))
  {
    assert Pow10(2) == 100 && Pow10(4) == 10000;
  }

  /** Timestamps sort chronologically: for years 0000-9999 the string order of
      two timestamps is the chronological order of the instants, and two
      instants in the same second give the same timestamp (and only they do). */
  lemma {:induction false} FormatOrder(a: DateTime, b: DateTime)
    requires a.FourDigitYear() && b.FourDigitYear()
    ensures Lex.Less(Format(a), Format(b)) <==> Before(a, b)
    ensures Format(a) == Format(b) <==> a == b
  {
    assert Pow10(2) == 100 && Pow10(4) == 10000;
    FormatFields(a);
    FormatFields(b);
    FixedOrder(a.year, b.year, 4);
    FixedOrder(a.month, b.month, 2);
    FixedOrder(a.day, b.day, 2);
    FixedOrder(a.hour, b.hour, 2);
    FixedOrder(a.minute, b.minute, 2);
    FixedOrder(a.second, b.second, 2);
    var s5a, s5b := Fixed(a.minute, 2) + Fixed(a.second, 2), Fixed(b.minute, 2) + Fixed(b.second, 2);
    var s4a, s4b := Fixed(a.hour, 2) + s5a, Fixed(b.hour, 2) + s5b;
    var s3a, s3b := "_" + s4a, "_" + s4b;
    var s2a, s2b := Fixed(a.day, 2) + s3a, Fixed(b.day, 2) + s3b;
    var s1a, s1b := Fixed(a.month, 2) + s2a, Fixed(b.month, 2) + s2b;
    Lex.LessFixedWidthConcat(Fixed(a.minute, 2), Fixed(a.second, 2), Fixed(b.minute, 2), Fixed(b.second, 2));
    Lex.LessFixedWidthConcat(Fixed(a.hour, 2), s5a, Fixed(b.hour, 2), s5b);
    Lex.LessCommonPrefix("_", s4a, s4b);
    Lex.LessFixedWidthConcat(Fixed(a.day, 2), s3a, Fixed(b.day, 2), s3b);
    Lex.LessFixedWidthConcat(Fixed(a.month, 2), s2a, Fixed(b.month, 2), s2b);
    Lex.LessFixedWidthConcat(Fixed(a.year, 4), s1a, Fixed(b.year, 4), s1b);
    ConcatInjective(Fixed(a.minute, 2), Fixed(a.second, 2), Fixed(b.minute, 2), Fixed(b.second, 2));
    ConcatInjective(Fixed(a.hour, 2), s5a, Fixed(b.hour, 2), s5b);
    ConcatInjective("_", s4a, "_", s4b);
    ConcatInjective(Fixed(a.day, 2), s3a, Fixed(b.day, 2), s3b);
    ConcatInjective(Fixed(a.month, 2), s2a, Fixed(b.month, 2), s2b);
    ConcatInjective(Fixed(a.year, 4), s1a, Fixed(b.year, 4), s1b);
  }

  lemma ConcatInjective(x1: string, y1: string, x2: string, y2: string)
    requires |x1| == |x2|
    ensures x1 + y1 == x2 + y2 <==> x1 == x2 && y1 == y2
  {
    if x1 + y1 == x2 + y2 {
      assert x1 == (x1 + y1)[..|x1|] && x2 == (x2 + y2)[..|x2|];
      assert y1 == (x1 + y1)[|x1|..] && y2 == (x2 + y2)[|x2|..];
    }
  }
}

=== FILE: wrappers.dfy ===
/** Optional values: the model's stand-in for Go's `(value, err)` pairs and nil. */
module Wrappers {

  datatype Option<+T> = None | Some(value: T)

  /** Bytes, as Go's `[]byte` and `string` hold them. */
  type Byte = b: int | 0 <= b < 256
}
